=== FILE: README.md ===
# W4 to Conta Azul conversion, modelled in Dafny

`app.py` converts a treasury ledger exported from W4 into the import sheet of Conta Azul.
This project models the conversion core of that program: `normalize_text`,
`preparar_categorias` with its helper `tirar_codigo_inicial`, `converter_valor` and `converter_w4`.

- **Tables.** A spreadsheet is a set of column names plus a sequence of rows. A row maps column
  names to cells. A cell is either missing (pandas `NaN`) or a text. `astype(str)` prints a
  missing cell as `"nan"`, as pandas 1 and 2 do with the object dtype.
- **Amounts.** A parsed amount is an exact decimal `units / 10^scale`, used in place of the
  binary float that `float()` returns.
- **Modules.** The modules follow the program's functions:
  - `Text`: lower-casing, stripping, accent folding, `normalize_text`, substring search.
  - `Categories`: `tirar_codigo_inicial` and `preparar_categorias`.
  - `Amount`: `converter_valor`.
  - `Rules`: the expense/revenue decision `is_despesa`.
  - `Conversion`: `converter_w4` as a whole.

`converter_w4` is a sequence of column steps, and it is modelled in two forms.

- **Specification.** `Conversion.ConvertW4Spec` is a function over whole columns.
- **Imperative method.** `Conversion.ConvertW4` runs the same steps in order, and its contract
  is that it equals `ConvertW4Spec`:
  1. It checks the detail column.
  2. It filters out transfers (`FilterTransfers`).
  3. It left-joins with the prepared reference (`Merge`).
  4. It fills a category array, then overwrites the loan rows in place (`ResolveCategories`).
  5. It fills an `is_despesa` array, then overwrites the revenue rows in place (`ClassifyRows`).
  6. It converts the amounts (`ConvertValues`).
  7. It assembles the output rows (`AssembleRows`).

The properties of `converter_w4` are proved about the specification function:

- transfers never reach the output;
- with unique base names, each kept ledger row gives exactly one output row, which is
  described field by field;
- duplicate base names duplicate ledger rows;
- the error cases, in the order the code raises them.

## Model

| member | source | states |
|---|---|---|
| Text.Lower | app.py:65 | `str.lower()` keeps the length and lower-cases each character on its own |
| Text.LowerIdempotent | app.py:65 | lower-casing a lower-cased text changes nothing |
| Text.Strip | app.py:65 | the stripped text starts and ends with non-whitespace, and a text already without surrounding whitespace is unchanged |
| Text.StripPadding | app.py:65 | `strip()` removes exactly the whitespace around a text that neither starts nor ends with whitespace |
| Text.StripIgnoresPadding | app.py:65 | whitespace added on either side of a text does not change what `strip()` returns |
| Text.Fold | app.py:66 | after NFKD decomposition with combining marks dropped, no combining mark is left, and ASCII text is unchanged |
| Text.ReplaceRunsShape | app.py:67-68 | after `re.sub(C + '+', ' ', s)` for a class C that holds the space, no character of C other than the space is left, no space is followed by a character of C, and a first character outside C is kept |
| Text.ReplaceRunsIdentity | app.py:67-68 | the substitution leaves unchanged a text whose only characters of the class are single spaces |
| Text.ReplaceRunsKeeps | app.py:67-68 | the substitution keeps every character outside the class, in order: only the runs of class characters are replaced |
| Text.Normalize | app.py:64-68 | the result of `normalize_text` holds only `[a-z0-9 ]`, has no space at either end and no two spaces in a row |
| Text.NormalizeKeepsWords | app.py:64-68 | `normalize_text` keeps the letters and digits of the lower-cased, stripped and folded text, in order, so text such as "a.b" keeps both words |
| Text.StripKeeps | app.py:68 | the final `strip()` removes no letter or digit |
| Text.NormalizeFixpoint | app.py:64-68 | a text is left unchanged by `normalize_text` exactly when it already has that normalised shape |
| Text.NormalizeIdempotent | app.py:64-68 | normalising twice gives the same as normalising once, so the two keys of the merge are comparable |
| Text.ContainsStrip | app.py:144 | a word without surrounding whitespace found in a text is also found in the stripped text |
| Text.ContainsIgnoringCaseLower | app.py:113-114 | a case-insensitive `str.contains` is the same as a plain search of the lower-cased pattern in the lower-cased text |
| Text.IndexOf | app.py:76 | the split point of `split(" ", 1)`: the first space, with no space before it, or the end of the text |
| Categories.StripCode | app.py:74-79 | `tirar_codigo_inicial` returns a suffix of the stripped text with no surrounding whitespace, and it returns the whole stripped text exactly when the first space-delimited token has no digit or there is no second token |
| Categories.StripCodeRoundTrip | app.py:74-79 | a line made of a code (a token with a digit and no space, not starting with whitespace), one space and a name that is not blank loses the code and gives back the stripped name, whatever whitespace surrounds the name |
| Categories.CodeRemoved | app.py:76-78 | a stripped line whose first token holds a digit yields the stripped text after the first space |
| Categories.PrepareCategories | app.py:70-82 | the reference table fails with a KeyError exactly when it lacks the description column; otherwise each row gets, in order, its description and a normalised base name of the description without its code |
| Amount.FloatStrip | app.py:94 | the text `float()` reads starts and ends with a character it does not skip, and a text without such whitespace is read whole |
| Amount.FloatStripPadding | app.py:94 | `float()` skips exactly its whitespace around a numeral whose ends are not such whitespace |
| Amount.ParseUnsignedAccepts | app.py:94 | the unsigned parse accepts exactly the numerals of the grammar (digits with at most one point, at least one digit) and never yields a negative number |
| Amount.ParseFloatAccepts | app.py:93-96 | `float()` succeeds exactly on an optionally signed numeral inside the whitespace it skips, and a negative result needs a leading '-' |
| Amount.ParseNumeral | app.py:94 | `float()` reads "digits.digits" as the exact decimal those digits denote |
| Amount.MagnitudeOfNotation | app.py:91-92 | for an amount in Brazilian notation behind sign characters, the text handed to `float()` is the plain numeral "digits.digits" |
| Amount.ConvertValue | app.py:88-99 | a missing amount gives no value; a text amount gives a value exactly when its magnitude text parses, and the value is the parsed magnitude, negated exactly for an expense |
| Amount.ConvertValueRoundTrip | app.py:88-99 | an amount written in Brazilian notation (sign characters, thousands dots, decimal comma) converts to its exact value, negated exactly for an expense |
| Amount.WholeAmount | app.py:88-99 | an amount without a decimal comma (sign characters, then integer digits with thousands dots, as in "1.500") converts to the whole number its digits spell, negated exactly for an expense |
| Amount.WholeMagnitude | app.py:91-92 | for grouped integer digits behind sign characters, the text handed to `float()` is the digits alone |
| Amount.WholeParse | app.py:94 | `float()` reads a string of digits as the whole number it spells |
| Amount.ConvertValueSign | app.py:91-98 | when no '-' is left after the leading signs are removed, a converted expense is never positive and a converted revenue never negative |
| Amount.SignAfterWhitespaceSurvives | app.py:91-94 | a '-' behind whitespace after the leading sign is read by `float()`: `"-\t-5"` on a revenue row converts to -5 |
| Amount.SeparatorIsNotFloatSpace | app.py:91-96 | an information separator (U+001C) after the sign survives `strip()` and `lstrip`, and `float()` rejects it, so `"-\x1c5"` converts to nothing |
| Rules.FlowBlankIgnoresCase | app.py:144 | whether the flow is blank does not depend on its case |
| Rules.FlowBlankIgnoresPadding | app.py:144 | whether the flow is blank does not depend on whitespace around it |
| Rules.IsDespesa | app.py:139-169 | a flow naming revenue is never an expense; otherwise a flow naming an expense is one; a non-blank flow naming neither is not one; with a blank flow the row is an expense exactly when the process names no receipt and either names a payment or the detail names a cost or an expense |
| Rules.BlankFlowHasNoKeyword | app.py:141-144 | a blank flow ("", "nan", "none" after stripping) contains neither "despesa" nor "receita" |
| Rules.KeywordSurvivesStrip | app.py:144 | a text that contains a word without surrounding whitespace strips to a text at least as long as that word |
| Rules.Classify | app.py:163-169 | the same decision as a list of rules tried in order of precedence, and it agrees with `is_despesa` on every row |
| Rules.NoProcessColumn | app.py:150-152 | without a `Processo` column a row is an expense exactly when its flow does not name revenue and either names an expense or is blank with a cost or expense word in the detail |
| Conversion.KeptRows | app.py:113-115 | the transfer filter never adds rows and keeps no transfer |
| Conversion.KeptRowsMembership | app.py:113-115 | a row survives the transfer filter exactly when it is a ledger row whose detail does not contain "Transferência Entre Disponíveis", ignoring case |
| Conversion.KeptRowsConcat | app.py:113-115 | the filter treats rows one at a time: filtering two blocks of rows is filtering each block and concatenating the results, so order is kept |
| Conversion.JoinRow | app.py:121-126 | a left join keeps each ledger row: once with no reference description when nothing matches, otherwise once per matching reference row, carrying that row's description |
| Conversion.LeftJoin | app.py:121-126 | the left merge has at least as many rows as the ledger it merges |
| Conversion.LeftJoinKeepsRows | app.py:121-126 | every ledger row survives the left merge as the row of at least one merged row |
| Conversion.LeftJoinRows | app.py:121-126 | every merged row comes from a ledger row |
| Conversion.TransfersDropped | app.py:113-126 | no merged row is a transfer, and every merged row comes from the ledger |
| Conversion.IndexKeys | app.py:121-126 | the reference dictionary holds a key exactly when some reference row has that base name |
| Conversion.MatchesUnique | app.py:121-126 | with unique base names a key matches at most one reference row, the one in the dictionary |
| Conversion.MatchesFound | app.py:121-126 | a key that some reference row has matches at least one row |
| Conversion.MatchesTwo | app.py:121-126 | a key that two reference rows share matches at least two rows |
| Conversion.DuplicateKeysDuplicateRow | app.py:121-126 | a ledger row whose base name appears twice in the reference is emitted at least twice |
| Conversion.LeftJoinUnique | app.py:121-128 | with unique base names the merge keeps the row count and pairs each row with its dictionary description, or with none |
| Conversion.FinalCategorySources | app.py:128-134 | the category is the loan process, the reference description or the raw detail, the loan rule taking precedence, and a present detail always gives a present category |
| Conversion.Description | app.py:191-194 | without an id column the description cell is copied as it is (a missing one stays empty); with one the description is the printed id, one space and the printed description |
| Conversion.DescriptionSplits | app.py:191-194 | with an id column and an id without spaces, the description splits at its first space into the printed id and the printed description |
| Conversion.MissingDescription | app.py:191-194 | a missing description prints as "nan" behind the id when there is an id column, and stays empty otherwise |
| Conversion.Sheet | app.py:183-199 | one output row per merged row, in order, each carrying its ledger row's formatted date in the three date columns and four empty trailing columns |
| Conversion.Cells | app.py:184-214 | an output row has exactly the ten columns of the Conta Azul sheet in the fixed order, and the cell in each position is the one assigned under that column's name (`Conversion.Column`) |
| Conversion.DespesaConditions | app.py:163-169 | a row's `is_despesa` is its expense condition without its revenue condition |
| Conversion.DespesaColumnSplit | app.py:163-169 | the `is_despesa` column is the expense column with the revenue rows switched off |
| Conversion.ConvertW4Spec | app.py:105-216 | the conversion fails exactly when the ledger lacks one of the detail, amount, date and description columns, and reports the first missing one in that order (the detail error, then a KeyError for the amount, the date or the description); a success has at least one row per kept ledger row |
| Conversion.OutputPerKeptRow | app.py:119-199 | with unique base names and all required columns the conversion succeeds with one output row per kept ledger row, in order; each row repeats the formatted date three times, holds the amount converted under the row's classification, the category from the loan rule, the dictionary or the detail, the description (prefixed with the id when there is an id column) and four empty columns |
| Conversion.CategoryViaIndex | app.py:128-134 | resolving a merged row's category is looking its normalised detail up in the reference dictionary, after the loan rule |
| Conversion.OutputRowsShape | app.py:183-199 | whatever the reference, every output row carries one date in all three date columns and ends in four empty columns |
| Conversion.AccentedLoanNotDetected | app.py:131-134 | the loan rule only lower-cases the process, so "Empréstimo" with its accent is not detected as a loan |
| Conversion.AccentBlocksLoanWord | app.py:132-133 | a process with the length of "emprestimo" and an 'é' in fifth position never contains "emprestimo" |
| Conversion.FindMatches | app.py:121-126 | the loop collects exactly the reference rows whose base name equals the key, in order |
| Conversion.FilterTransfers | app.py:113-115 | the loop keeps exactly the rows of the transfer filter, in order |
| Conversion.Merge | app.py:121-126 | the loop builds exactly the left merge |
| Conversion.ResolveCategories | app.py:128-134 | filling the category array and then overwriting the loan rows in place gives the category column |
| Conversion.ClassifyRows | app.py:163-169 | filling the flag array from the expense conditions and then clearing the revenue rows in place gives, per row, expense and not revenue |
| Conversion.ConvertValues | app.py:172-174 | the loop converts every merged row's amount under its flag |
| Conversion.AssembleRows | app.py:183-199 | the loop builds exactly the output sheet, row by row |
| Conversion.ConvertW4 | app.py:105-216 | the imperative conversion returns exactly what the column specification returns, errors included |

## Left out

- The Streamlit interface is not modelled, and neither is loading the files: the ledger through
  `carregar_arquivo_w4` (Excel, or CSV with `;` and Latin-1) and the category workbook read at
  start-up. The model starts from tables of cells and ends with output rows.
- `formatar_data_coluna` (`pd.to_datetime` with `errors="coerce"`, then `strftime`) is a
  parameter `formatDate` applied to each date cell. pandas infers one date format for a whole
  column, which a per-cell function does not capture.
- `float()` is modelled for decimal numerals with an optional sign. The whitespace it skips around
  the numeral is ' ', '\t' to '\r' and the characters beyond ASCII for which `str.isspace()`
  holds. Exponents, `inf`, `nan`, underscores and non-ASCII digits are not modelled.
- The result of `float()` is exact. Binary rounding is not modelled.
- Amount cells that Excel stores as numbers are not modelled. Their `str()` form (`"1234.5"`)
  loses its dot to the thousands-separator removal, and the model only has text cells.
- Lower-casing, whitespace, digits and NFKD accent folding are modelled for Latin-1 characters
  and the Combining Diacritical Marks block (U+0300 to U+036F). Other characters are lower-cased
  and folded to themselves. The case-insensitive match of the transfer marker follows the same
  restriction.
- The merge copies the reference columns `nome_base` and `Descrição da categoria financeira`
  into the ledger frame. Column-name clashes and the suffixes pandas would add for them are not
  modelled. Only the joined description and the ledger row are kept.
- Conversion.OutputPerKeptRow: the row-by-row description of the output is proved only for a
  reference with unique base names. With duplicates, `Conversion.DuplicateKeysDuplicateRow`
  shows that ledger rows are repeated, and `Conversion.LeftJoin` gives only a lower bound on
  the row count.
- Conversion.KeyColumn: computing `nome_base_w4` is a function over the kept rows (pandas
  `apply`), not a loop, and its contract states only the length.
- Missing cells follow pandas 1 and 2, where `astype(str)` on the object dtype prints them as
  `"nan"`. Under the default string dtype of pandas 3 a missing cell stays missing after
  `astype(str)`. That would change the blank-flow test and the `"id nan"` description, and it
  is not modelled.
- Row indexes are not modelled. pandas aligns the date column and the other output columns by
  index, and after the merge both have the same fresh index.

=== FILE: amount.dfy ===
/**
 * Amount conversion (`converter_valor`): a ledger amount written in Brazilian notation
 * ("-1.234,56") loses its leading sign characters, its thousands dots and its decimal comma is
 * turned into a point; the text is then parsed as a number and negated for expenses.
 *
 * The parsed number is an exact decimal, `units / 10^scale`, in place of a binary float.
 */
module Amount {
  import opened Wrappers
  import opened Text
  import opened Tables

  /** The number `units / 10^scale`. */
  datatype Decimal = Decimal(units: int, scale: nat)

  function Negate(d: Decimal): Decimal {
    Decimal(-d.units, d.scale)
  }

  function Signed(d: Decimal, negative: bool): Decimal {
    if negative then Negate(d) else d
  }

  predicate IsAsciiDigit(c: char) {
    '0' <= c <= '9'
  }

  predicate AllDigits(s: string) {
    forall i | 0 <= i < |s| :: IsAsciiDigit(s[i])
  }

  /** The value of a string of decimal digits; the empty string is worth 0. */
  function DigitsValue(ds: string): nat
    requires AllDigits(ds)
  {
    if ds == [] then 0
    else 10 * DigitsValue(ds[..|ds| - 1]) + (ds[|ds| - 1] as int - '0' as int)
  }

  /** The characters `lstrip("+- ")` removes. */
  const SignChars: set<char> := {'+', '-', ' '}

  /** `s.lstrip(chars)`. */
  function LStrip(s: string, chars: set<char>): (r: string)
    ensures |r| <= |s| && r == s[|s| - |r|..]
    ensures r == [] || r[0] !in chars
  {
    if s != [] && s[0] in chars then LStrip(s[1..], chars) else s
  }

  /** `s.replace(c, "")`. */
  function RemoveChar(s: string, c: char): (r: string)
    ensures c !in r
  {
    if s == [] then []
    else (if s[0] == c then [] else [s[0]]) + RemoveChar(s[1..], c)
  }

  /** `s.replace(c, d)` for single characters. */
  function ReplaceChar(s: string, c: char, d: char): (r: string)
    ensures |r| == |s|
    ensures forall i | 0 <= i < |s| :: r[i] == if s[i] == c then d else s[i]
  {
    if s == [] then []
    else [if s[0] == c then d else s[0]] + ReplaceChar(s[1..], c, d)
  }

  /** An unsigned decimal numeral: digits, optionally a point and more digits, at least one
      digit in all ("5", "5.", ".5", "1234.56"). */
  function ParseUnsigned(b: string): Option<Decimal> {
    var k := IndexOf(b, '.');
    var intPart := b[..k];
    var fracPart := if k < |b| then b[k + 1..] else [];
    if AllDigits(intPart) && AllDigits(fracPart) && |intPart| + |fracPart| > 0 then
      Some(Decimal(DigitsValue(intPart + fracPart), |fracPart|))
    else
      None
  }

  /** Whitespace that `float()` skips around a numeral: ' ' and '\t' to '\r', and the
      characters beyond ASCII for which `str.isspace()` holds (CPython turns those into ' ' before
      parsing). The separators U+001C to U+001F count for `str.isspace()` and `str.strip()` but not
      for `float()`.

      `FloatTrimStart`, `FloatTrimEnd` and `FloatStrip` below mirror `Text.TrimStart`,
      `Text.TrimEnd` and `Text.Strip` with this test in place of `IsSpace`. They are kept as
      separate functions rather than one family over a `char -> bool` parameter, so that the many
      lemmas about `str.strip()` in `Text` keep reasoning about the fixed `IsSpace`. */
  predicate IsFloatSpace(c: char) {
    IsSpace(c) && !('\U{1C}' <= c <= '\U{1F}')
  }

  function FloatTrimStart(s: string): (r: string)
    ensures |r| <= |s|
    ensures r == [] || !IsFloatSpace(r[0])
  {
    if s != [] && IsFloatSpace(s[0]) then FloatTrimStart(s[1..]) else s
  }

  function FloatTrimEnd(s: string): (r: string)
    ensures |r| <= |s|
    ensures r == [] || !IsFloatSpace(r[|r| - 1])
  {
    if s != [] && IsFloatSpace(s[|s| - 1]) then FloatTrimEnd(s[..|s| - 1]) else s
  }

  /** The text `float()` reads: `t` without the surrounding whitespace it skips. */
  function FloatStrip(t: string): (r: string)
    ensures |r| <= |t|
    ensures r == [] || (!IsFloatSpace(r[0]) && !IsFloatSpace(r[|r| - 1]))
    ensures t == [] || (!IsFloatSpace(t[0]) && !IsFloatSpace(t[|t| - 1])) ==> r == t
  {
    FloatTrimEndSlice(FloatTrimStart(t));
    FloatTrimEnd(FloatTrimStart(t))
  }

  lemma {:induction false} FloatTrimStartSlice(s: string)
    ensures FloatTrimStart(s) == s[|s| - |FloatTrimStart(s)|..]
    decreases |s|
  {
    if s != [] && IsFloatSpace(s[0]) {
      FloatTrimStartSlice(s[1..]);
    }
  }

  lemma {:induction false} FloatTrimEndSlice(s: string)
    ensures FloatTrimEnd(s) == s[..|FloatTrimEnd(s)|]
    decreases |s|
  {
    if s != [] && IsFloatSpace(s[|s| - 1]) {
      FloatTrimEndSlice(s[..|s| - 1]);
    }
  }

  /** `float()` skips exactly the whitespace around a numeral that neither starts nor ends with
      such whitespace. */
  lemma FloatStripPadding(p: string, m: string, q: string)
    requires forall i | 0 <= i < |p| :: IsFloatSpace(p[i])
    requires forall i | 0 <= i < |q| :: IsFloatSpace(q[i])
    requires m == [] || (!IsFloatSpace(m[0]) && !IsFloatSpace(m[|m| - 1]))
    ensures FloatStrip(p + m + q) == m
  {
    if m == [] {
      var s := p + q;
      forall i | 0 <= i < |s|
        ensures IsFloatSpace(s[i])
      {
        if i < |p| {
          assert s[i] == p[i];
        } else {
          assert s[i] == q[i - |p|];
        }
      }
      FloatTrimStartPadding(s, []);
      assert s + [] == s && p + m + q == s;
    } else {
      assert p + m + q == p + (m + q);
      FloatTrimStartPadding(p, m + q);
      FloatTrimEndPadding(m, q);
    }
  }

  lemma {:induction false} FloatTrimStartPadding(p: string, x: string)
    requires forall i | 0 <= i < |p| :: IsFloatSpace(p[i])
    requires x == [] || !IsFloatSpace(x[0])
    ensures FloatTrimStart(p + x) == x
    decreases |p|
  {
    if p == [] {
      assert p + x == x;
    } else {
      assert (p + x)[0] == p[0];
      assert (p + x)[1..] == p[1..] + x;
      FloatTrimStartPadding(p[1..], x);
    }
  }

  lemma {:induction false} FloatTrimEndPadding(x: string, q: string)
    requires forall i | 0 <= i < |q| :: IsFloatSpace(q[i])
    requires x == [] || !IsFloatSpace(x[|x| - 1])
    ensures FloatTrimEnd(x + q) == x
    decreases |q|
  {
    if q == [] {
      assert x + q == x;
    } else {
      var n := |x + q| - 1;
      assert (x + q)[n] == q[|q| - 1];
      assert (x + q)[..n] == x + q[..|q| - 1];
      FloatTrimEndPadding(x, q[..|q| - 1]);
    }
  }

  /** What `float()` reads is a piece of its argument. */
  lemma FloatStripSlice(t: string) returns (k: nat)
    ensures k + |FloatStrip(t)| <= |t| && FloatStrip(t) == t[k..k + |FloatStrip(t)|]
  {
    k := |t| - |FloatTrimStart(t)|;
    FloatTrimStartSlice(t);
    FloatTrimEndSlice(FloatTrimStart(t));
  }

  /** Python's `float()` on decimal numerals: surrounding whitespace, an optional sign, then an
      unsigned numeral. */
  function ParseFloat(t: string): Option<Decimal> {
    var u := FloatStrip(t);
    if u != [] && (u[0] == '+' || u[0] == '-') then
      match ParseUnsigned(u[1..])
      case None => None
      case Some(d) => Some(Signed(d, u[0] == '-'))
    else
      ParseUnsigned(u)
  }

  /** The numerals `float()` accepts here, as a grammar: digits with at most one point and at
      least one digit. */
  predicate IsNumeral(b: string) {
    || (b != [] && AllDigits(b))
    || exists k | 0 <= k < |b| :: b[k] == '.' && AllDigits(b[..k]) && AllDigits(b[k + 1..]) && |b| > 1
  }

  /** The unsigned parse accepts exactly the numerals of the grammar, and never yields a negative
      number. */
  lemma ParseUnsignedAccepts(b: string)
    ensures ParseUnsigned(b).Some? <==> IsNumeral(b)
    ensures ParseUnsigned(b).Some? ==> ParseUnsigned(b).value.units >= 0
  {
    var k := IndexOf(b, '.');
    if b != [] && AllDigits(b) {
      forall i | 0 <= i < |b|
        ensures b[i] != '.'
      {
        assert IsAsciiDigit(b[i]);
      }
      assert b[..k] == b;
    } else if IsNumeral(b) {
      var j :| 0 <= j < |b| && b[j] == '.' && AllDigits(b[..j]) && AllDigits(b[j + 1..]) && |b| > 1;
      forall i | 0 <= i < j
        ensures b[i] != '.'
      {
        assert b[..j][i] == b[i];
        assert IsAsciiDigit(b[..j][i]);
      }
      IndexOfFirst(b, '.', j);
    }
    if ParseUnsigned(b).Some? {
      if k == |b| {
        assert b[..k] == b;
      } else {
        assert b[k] == '.' && AllDigits(b[..k]) && AllDigits(b[k + 1..]) && |b| > 1;
      }
    }
  }

  /** A numeral starts with a digit or a point. */
  lemma NumeralStart(b: string)
    requires b != [] && IsNumeral(b)
    ensures b[0] == '.' || IsAsciiDigit(b[0])
  {
    if !AllDigits(b) {
      var j :| 0 <= j < |b| && b[j] == '.' && AllDigits(b[..j]) && AllDigits(b[j + 1..]) && |b| > 1;
      if j > 0 {
        assert b[..j][0] == b[0];
      }
    }
  }

  /** `float()` succeeds exactly on an optionally signed numeral surrounded by the whitespace it
      skips, and a negative result needs a leading '-'. */
  lemma ParseFloatAccepts(t: string)
    ensures var u := FloatStrip(t);
      ParseFloat(t).Some? <==>
        IsNumeral(u) || (u != [] && (u[0] == '+' || u[0] == '-') && IsNumeral(u[1..]))
    ensures ParseFloat(t).Some? && ParseFloat(t).value.units < 0 ==> FloatStrip(t)[0] == '-'
  {
    var u := FloatStrip(t);
    ParseUnsignedAccepts(u);
    if u != [] {
      ParseUnsignedAccepts(u[1..]);
      if IsNumeral(u) {
        NumeralStart(u);
      }
    }
  }

  /** The text `converter_valor` hands to `float()`: stripped, leading '+', '-' and ' ' removed,
      every '.' deleted and every ',' turned into '.'. */
  function Magnitude(s: string): string {
    ReplaceChar(RemoveChar(LStrip(Strip(s), SignChars), '.'), ',', '.')
  }

  /** `converter_valor` (app.py): a missing amount or text that does not parse gives no value;
      otherwise the parsed magnitude, negated exactly when the row is an expense. */
  function ConvertValue(v: Cell, isDespesa: bool): (r: Option<Decimal>)
    ensures v.Missing? ==> r == None
    ensures r.Some? <==> v.Text? && ParseFloat(Magnitude(v.s)).Some?
    ensures r.Some? ==> r.value == Signed(ParseFloat(Magnitude(v.s)).value, isDespesa)
  {
    match v
    case Missing => None
    case Text(s) =>
      match ParseFloat(Magnitude(s))
      case None => None
      case Some(n) => Some(Signed(n, isDespesa))
  }

  /** Writes digits with a '.' before every group of three counted from the right, as in
      "1.234.567". */
  function Group(ds: string): string {
    if |ds| <= 3 then ds else Group(ds[..|ds| - 3]) + "." + ds[|ds| - 3..]
  }

  /** Reading back an amount written in Brazilian notation (sign characters, grouped integer
      digits, a decimal comma, fraction digits) gives its exact value, negated for an expense. */
  lemma ConvertValueRoundTrip(signs: string, intDigits: string, fracDigits: string, isDespesa: bool)
    requires forall i | 0 <= i < |signs| :: signs[i] in SignChars
    requires AllDigits(intDigits) && AllDigits(fracDigits) && |intDigits| + |fracDigits| > 0
    ensures ConvertValue(Text(signs + (Group(intDigits) + "," + fracDigits)), isDespesa)
         == Some(Signed(Decimal(DigitsValue(intDigits + fracDigits), |fracDigits|), isDespesa))
  {
    MagnitudeOfNotation(signs, intDigits, fracDigits);
    ParseNumeral(intDigits, fracDigits);
  }

  /** An amount without a decimal comma (sign characters, then grouped integer digits, as in
      "1.500") reads back as the whole number its digits spell, negated for an expense. */
  lemma WholeAmount(signs: string, intDigits: string, isDespesa: bool)
    requires forall i | 0 <= i < |signs| :: signs[i] in SignChars
    requires AllDigits(intDigits) && intDigits != []
    ensures ConvertValue(Text(signs + Group(intDigits)), isDespesa)
         == Some(Signed(Decimal(DigitsValue(intDigits), 0), isDespesa))
  {
    WholeMagnitude(signs, intDigits);
    WholeParse(intDigits);
  }

  /** What `converter_valor` hands to `float()` for grouped integer digits is the digits alone. */
  lemma WholeMagnitude(signs: string, intDigits: string)
    requires forall i | 0 <= i < |signs| :: signs[i] in SignChars
    requires AllDigits(intDigits) && intDigits != []
    ensures Magnitude(signs + Group(intDigits)) == intDigits
  {
    var x := Group(intDigits);
    calc {
      Magnitude(signs + x);
      ReplaceChar(RemoveChar(LStrip(Strip(signs + x), SignChars), '.'), ',', '.');
      { WholeEnds(intDigits);
        SignRunRemoved(signs, x); }
      ReplaceChar(RemoveChar(x, '.'), ',', '.');
      { DigitsHaveNoDot(intDigits); GroupRemoveDots(intDigits); }
      ReplaceChar(intDigits, ',', '.');
      { NoCommaKept(intDigits); }
      intDigits;
    }
  }

  lemma WholeEnds(intDigits: string)
    requires AllDigits(intDigits) && intDigits != []
    ensures var x := Group(intDigits);
      x != [] && x[0] !in SignChars && !IsSpace(x[0]) && !IsSpace(x[|x| - 1])
  {
    var x := Group(intDigits);
    GroupStart(intDigits);
    GroupEnd(intDigits);
    assert IsAsciiDigit(intDigits[0]) && IsAsciiDigit(intDigits[|intDigits| - 1]);
  }

  lemma NoCommaKept(ds: string)
    requires AllDigits(ds)
    ensures ReplaceChar(ds, ',', '.') == ds
  {
    forall i | 0 <= i < |ds|
      ensures ReplaceChar(ds, ',', '.')[i] == ds[i]
    {
      assert IsAsciiDigit(ds[i]);
    }
  }

  /** `float()` reads a string of digits as the whole number it spells. */
  lemma WholeParse(intDigits: string)
    requires AllDigits(intDigits) && intDigits != []
    ensures ParseFloat(intDigits) == Some(Decimal(DigitsValue(intDigits), 0))
  {
    assert IsAsciiDigit(intDigits[0]) && IsAsciiDigit(intDigits[|intDigits| - 1]);
    assert FloatStrip(intDigits) == intDigits;
    DigitsHaveNoDot(intDigits);
    assert IndexOf(intDigits, '.') == |intDigits|;
    assert intDigits[..|intDigits|] == intDigits && intDigits + [] == intDigits;
  }

  /** Grouping keeps the last digit last. */
  lemma {:induction false} GroupEnd(ds: string)
    requires ds != []
    ensures Group(ds) != [] && Group(ds)[|Group(ds)| - 1] == ds[|ds| - 1]
    decreases |ds|
  {
    if |ds| > 3 {
      GroupEnd(ds[..|ds| - 3]);
    }
  }

  /** What `converter_valor` hands to `float()` for an amount in Brazilian notation is the
      plain numeral "digits.digits". */
  lemma MagnitudeOfNotation(signs: string, intDigits: string, fracDigits: string)
    requires forall i | 0 <= i < |signs| :: signs[i] in SignChars
    requires AllDigits(intDigits) && AllDigits(fracDigits) && |intDigits| + |fracDigits| > 0
    ensures Magnitude(signs + (Group(intDigits) + "," + fracDigits)) == intDigits + "." + fracDigits
  {
    var written := signs + (Group(intDigits) + "," + fracDigits);
    var x := Group(intDigits) + "," + fracDigits;
    calc {
      Magnitude(written);
      ReplaceChar(RemoveChar(LStrip(Strip(written), SignChars), '.'), ',', '.');
      { NotationEnds(intDigits, fracDigits);
        SignRunRemoved(signs, x); }
      ReplaceChar(RemoveChar(x, '.'), ',', '.');
      { NotationDotsRemoved(intDigits, fracDigits); }
      ReplaceChar(intDigits + "," + fracDigits, ',', '.');
      { NotationCommaReplaced(intDigits, fracDigits); }
      intDigits + "." + fracDigits;
    }
  }

  lemma NotationEnds(intDigits: string, fracDigits: string)
    requires AllDigits(intDigits) && AllDigits(fracDigits)
    ensures var x := Group(intDigits) + "," + fracDigits;
      x[0] !in SignChars && !IsSpace(x[0]) && !IsSpace(x[|x| - 1])
  {
    var x := Group(intDigits) + "," + fracDigits;
    GroupStart(intDigits);
    assert x[0] == (if intDigits == [] then ',' else intDigits[0]);
    assert x[|x| - 1] == (if fracDigits == [] then ',' else fracDigits[|fracDigits| - 1]);
  }

  lemma NotationDotsRemoved(intDigits: string, fracDigits: string)
    requires AllDigits(intDigits) && AllDigits(fracDigits)
    ensures RemoveChar(Group(intDigits) + "," + fracDigits, '.') == intDigits + "," + fracDigits
  {
    var tail := "," + fracDigits;
    calc {
      RemoveChar(Group(intDigits) + "," + fracDigits, '.');
      { assert Group(intDigits) + "," + fracDigits == Group(intDigits) + tail; }
      RemoveChar(Group(intDigits) + tail, '.');
      { RemoveCharConcat(Group(intDigits), tail, '.'); }
      RemoveChar(Group(intDigits), '.') + RemoveChar(tail, '.');
      { DigitsHaveNoDot(intDigits); GroupRemoveDots(intDigits); }
      intDigits + RemoveChar(tail, '.');
      { DigitsHaveNoDot(fracDigits); RemoveCharAbsent(tail, '.'); }
      intDigits + tail;
      { assert intDigits + tail == intDigits + "," + fracDigits; }
      intDigits + "," + fracDigits;
    }
  }

  lemma DigitsHaveNoDot(s: string)
    requires AllDigits(s)
    ensures '.' !in s && '.' !in "," + s
  {
  }

  lemma NotationCommaReplaced(intDigits: string, fracDigits: string)
    requires AllDigits(intDigits) && AllDigits(fracDigits)
    ensures ReplaceChar(intDigits + "," + fracDigits, ',', '.') == intDigits + "." + fracDigits
  {
    var y := intDigits + "," + fracDigits;
    var z := intDigits + "." + fracDigits;
    forall i | 0 <= i < |y|
      ensures ReplaceChar(y, ',', '.')[i] == z[i]
    {
      if i < |intDigits| {
        assert y[i] == intDigits[i] && IsAsciiDigit(intDigits[i]);
      } else if i > |intDigits| {
        assert y[i] == fracDigits[i - |intDigits| - 1] && IsAsciiDigit(fracDigits[i - |intDigits| - 1]);
      }
    }
  }

  /** `float()` reads "digits.digits" as the exact decimal they denote. */
  lemma ParseNumeral(intDigits: string, fracDigits: string)
    requires AllDigits(intDigits) && AllDigits(fracDigits) && |intDigits| + |fracDigits| > 0
    ensures ParseFloat(intDigits + "." + fracDigits)
         == Some(Decimal(DigitsValue(intDigits + fracDigits), |fracDigits|))
  {
    var z := intDigits + "." + fracDigits;
    NumeralEnds(intDigits, fracDigits);
    assert FloatStrip(z) == z;
    NumeralPoint(intDigits, fracDigits);
    assert z[..|intDigits|] == intDigits;
    assert z[|intDigits| + 1..] == fracDigits;
  }

  lemma NumeralEnds(intDigits: string, fracDigits: string)
    requires AllDigits(intDigits) && AllDigits(fracDigits)
    ensures var z := intDigits + "." + fracDigits;
      !IsSpace(z[0]) && !IsSpace(z[|z| - 1]) && z[0] != '+' && z[0] != '-'
  {
    var z := intDigits + "." + fracDigits;
    assert z[0] == (if intDigits == [] then '.' else intDigits[0]);
    assert z[|z| - 1] == (if fracDigits == [] then '.' else fracDigits[|fracDigits| - 1]);
  }

  lemma NumeralPoint(intDigits: string, fracDigits: string)
    requires AllDigits(intDigits)
    ensures IndexOf(intDigits + "." + fracDigits, '.') == |intDigits|
  {
    var z := intDigits + "." + fracDigits;
    forall i | 0 <= i < |intDigits|
      ensures z[i] != '.'
    {
      assert z[i] == intDigits[i];
    }
    IndexOfFirst(z, '.', |intDigits|);
  }

  /** Stripping and then removing the sign characters deletes exactly a leading run of
      sign characters in front of text that starts and ends with neither. */
  lemma {:induction false} SignRunRemoved(signs: string, x: string)
    requires forall i | 0 <= i < |signs| :: signs[i] in SignChars
    requires x != [] && x[0] !in SignChars && !IsSpace(x[0]) && !IsSpace(x[|x| - 1])
    ensures LStrip(Strip(signs + x), SignChars) == x
    decreases |signs|, 1
  {
    if signs == [] {
      assert signs + x == x;
      PlainTextKept(x);
    } else if signs[0] == ' ' {
      SpaceThenSigns(signs, x);
    } else {
      SignThenSigns(signs, x);
    }
  }

  lemma {:induction false} SpaceThenSigns(signs: string, x: string)
    requires forall i | 0 <= i < |signs| :: signs[i] in SignChars
    requires x != [] && x[0] !in SignChars && !IsSpace(x[0]) && !IsSpace(x[|x| - 1])
    requires signs != [] && signs[0] == ' '
    ensures LStrip(Strip(signs + x), SignChars) == x
    decreases |signs|, 0
  {
    StripLeadingSpace(signs, x);
    SignRunRemoved(signs[1..], x);
  }

  lemma SignThenSigns(signs: string, x: string)
    requires forall i | 0 <= i < |signs| :: signs[i] in SignChars
    requires x != [] && x[0] !in SignChars && !IsSpace(x[|x| - 1])
    requires signs != [] && signs[0] != ' '
    ensures LStrip(Strip(signs + x), SignChars) == x
  {
    SignedTextStripped(signs, x);
    LStripSignRun(signs, x);
  }

  lemma PlainTextKept(x: string)
    requires x != [] && x[0] !in SignChars && !IsSpace(x[0]) && !IsSpace(x[|x| - 1])
    ensures LStrip(Strip(x), SignChars) == x
  {
  }

  /** A leading space does not change what `strip()` returns. */
  lemma StripLeadingSpace(signs: string, x: string)
    requires signs != [] && IsSpace(signs[0])
    ensures Strip(signs + x) == Strip(signs[1..] + x)
  {
    assert (signs + x)[1..] == signs[1..] + x;
  }

  lemma SignedTextStripped(signs: string, x: string)
    requires signs != [] && signs[0] in SignChars && signs[0] != ' '
    requires x != [] && !IsSpace(x[|x| - 1])
    ensures Strip(signs + x) == signs + x
  {
    var s := signs + x;
    assert s[0] == signs[0];
    assert s[|s| - 1] == x[|x| - 1];
  }

  lemma {:induction false} LStripSignRun(signs: string, x: string)
    requires forall i | 0 <= i < |signs| :: signs[i] in SignChars
    requires x == [] || x[0] !in SignChars
    ensures LStrip(signs + x, SignChars) == x
    decreases |signs|
  {
    if signs == [] {
      assert signs + x == x;
    } else {
      assert (signs + x)[1..] == signs[1..] + x;
      LStripSignRun(signs[1..], x);
    }
  }

  lemma {:induction false} RemoveCharConcat(a: string, b: string, c: char)
    ensures RemoveChar(a + b, c) == RemoveChar(a, c) + RemoveChar(b, c)
    decreases |a|
  {
    if a == [] {
      assert a + b == b;
    } else {
      assert (a + b)[1..] == a[1..] + b;
      RemoveCharConcat(a[1..], b, c);
    }
  }

  lemma {:induction false} RemoveCharAbsent(s: string, c: char)
    requires c !in s
    ensures RemoveChar(s, c) == s
    decreases |s|
  {
    if s != [] {
      RemoveCharAbsent(s[1..], c);
    }
  }

  /** Deleting the thousands dots of grouped digits gives the digits back. */
  lemma {:induction false} GroupRemoveDots(ds: string)
    requires '.' !in ds
    ensures RemoveChar(Group(ds), '.') == ds
    decreases |ds|
  {
    if |ds| <= 3 {
      RemoveCharAbsent(ds, '.');
    } else {
      var front, back := ds[..|ds| - 3], ds[|ds| - 3..];
      assert ds == front + back;
      calc {
        RemoveChar(Group(ds), '.');
        { assert Group(ds) == Group(front) + "." + back;
          assert Group(front) + "." + back == Group(front) + ("." + back); }
        RemoveChar(Group(front) + ("." + back), '.');
        { RemoveCharConcat(Group(front), "." + back, '.'); }
        RemoveChar(Group(front), '.') + RemoveChar("." + back, '.');
        { GroupRemoveDots(front); }
        front + RemoveChar("." + back, '.');
        { RemoveLeadingDot(back); RemoveCharAbsent(back, '.'); }
        front + back;
      }
    }
  }

  lemma RemoveLeadingDot(s: string)
    ensures RemoveChar("." + s, '.') == RemoveChar(s, '.')
  {
    assert ("." + s)[1..] == s;
  }

  lemma {:induction false} GroupStart(ds: string)
    ensures |Group(ds)| >= |ds|
    ensures ds != [] ==> Group(ds)[0] == ds[0]
    ensures ds == [] ==> Group(ds) == []
    decreases |ds|
  {
    if |ds| > 3 {
      GroupStart(ds[..|ds| - 3]);
    }
  }

  /** Without a '-' left after the leading sign characters, an amount that converts is
      non-positive for an expense and non-negative otherwise. */
  lemma ConvertValueSign(s: string, isDespesa: bool)
    requires '-' !in LStrip(Strip(s), SignChars)
    requires ConvertValue(Text(s), isDespesa).Some?
    ensures isDespesa ==> ConvertValue(Text(s), isDespesa).value.units <= 0
    ensures !isDespesa ==> ConvertValue(Text(s), isDespesa).value.units >= 0
  {
    var stripped := LStrip(Strip(s), SignChars);
    RemoveCharKeepsAbsent(stripped, '.', '-');
    ReplaceCharKeepsAbsent(RemoveChar(stripped, '.'), ',', '.', '-');
    ParseFloatNonNegative(Magnitude(s));
  }

  lemma {:induction false} RemoveCharKeepsAbsent(s: string, c: char, x: char)
    requires x !in s
    ensures x !in RemoveChar(s, c)
    decreases |s|
  {
    if s != [] {
      RemoveCharKeepsAbsent(s[1..], c, x);
    }
  }

  lemma ReplaceCharKeepsAbsent(s: string, c: char, d: char, x: char)
    requires x !in s && x != d
    ensures x !in ReplaceChar(s, c, d)
  {
  }

  /** Text without a '-' never parses to a negative number. */
  lemma ParseFloatNonNegative(t: string)
    requires '-' !in t
    requires ParseFloat(t).Some?
    ensures ParseFloat(t).value.units >= 0
  {
    var u := FloatStrip(t);
    var k := FloatStripSlice(t);
    if u != [] {
      assert u[0] == t[k];
    }
  }

  /** A '-' that follows whitespace after the leading sign characters is read by `float()`
      itself: "-\t-5" on a revenue row converts to -5. */
  lemma SignAfterWhitespaceSurvives()
    ensures ConvertValue(Text("-\t-5"), false) == Some(Decimal(-5, 0))
  {
    ExampleMagnitude();
    ExampleParse();
  }

  lemma ExampleMagnitude()
    ensures Magnitude("-\t-5") == "\t-5"
  {
    ExampleStripped();
    ExampleSignsRemoved();
    RemoveCharAbsent("\t-5", '.');
    assert ReplaceChar("\t-5", ',', '.') == "\t-5";
  }

  lemma ExampleStripped()
    ensures Strip("-\t-5") == "-\t-5"
  {
    var s := "-\t-5";
    assert !IsSpace(s[0]) && !IsSpace(s[3]);
  }

  lemma ExampleSignsRemoved()
    ensures LStrip("-\t-5", SignChars) == "\t-5"
  {
    var s := "-\t-5";
    var t := "\t-5";
    assert s[0] in SignChars;
    assert s[1..] == t;
    assert t[0] !in SignChars;
    assert LStrip(t, SignChars) == t;
  }

  lemma ExampleParse()
    ensures ParseFloat("\t-5") == Some(Decimal(-5, 0))
  {
    ExampleLeadingTab();
    assert "-5"[1..] == "5";
    assert IndexOf("5", '.') == 1;
    assert DigitsValue("5") == 5;
  }

  lemma ExampleLeadingTab()
    ensures FloatStrip("\t-5") == "-5"
  {
    var s, t := "\t-5", "-5";
    assert IsFloatSpace(s[0]);
    assert s[1..] == t;
    assert !IsFloatSpace(t[0]) && !IsFloatSpace(t[1]);
    assert FloatTrimStart(t) == t;
    assert FloatTrimStart(s) == t;
    assert FloatTrimEnd(t) == t;
  }

  /** An information separator between the sign and the digits survives `strip()` but is not
      whitespace to `float()`: "-\x1c5" converts to nothing. */
  lemma SeparatorIsNotFloatSpace()
    ensures ConvertValue(Text("-\U{1C}5"), false) == None
  {
    SeparatorMagnitude();
    SeparatorParse();
  }

  lemma SeparatorMagnitude()
    ensures Magnitude("-\U{1C}5") == "\U{1C}5"
  {
    SeparatorStripped();
    SeparatorSignsRemoved();
    RemoveCharAbsent("\U{1C}5", '.');
    assert ReplaceChar("\U{1C}5", ',', '.') == "\U{1C}5";
  }

  lemma SeparatorStripped()
    ensures Strip("-\U{1C}5") == "-\U{1C}5"
  {
    var s := "-\U{1C}5";
    assert !IsSpace(s[0]) && !IsSpace(s[2]);
  }

  lemma SeparatorSignsRemoved()
    ensures LStrip("-\U{1C}5", SignChars) == "\U{1C}5"
  {
    var s, t := "-\U{1C}5", "\U{1C}5";
    assert s[0] in SignChars;
    assert s[1..] == t;
    assert t[0] !in SignChars;
    assert LStrip(t, SignChars) == t;
  }

  lemma SeparatorParse()
    ensures ParseFloat("\U{1C}5") == None
  {
    var t := "\U{1C}5";
    assert !IsFloatSpace(t[0]) && !IsFloatSpace(t[1]);
    assert FloatStrip(t) == t;
    assert IndexOf(t, '.') == 2;
    assert !IsAsciiDigit(t[0]);
  }
}

=== FILE: categories.dfy ===
/**
 * Preparation of the category reference table (`preparar_categorias`): each reference description
 * loses a leading accounting code (`tirar_codigo_inicial`) and is normalised into a base name that
 * ledger details are matched against.
 */
module Categories {
  import opened Wrappers
  import opened Text
  import opened Tables

  const RefDescColumn: string := "Descrição da categoria financeira"

  /** Characters for which Python's `str.isdigit()` holds, within Latin-1. */
  predicate IsDigit(c: char) {
    '0' <= c <= '9' || c == '\U{B2}' || c == '\U{B3}' || c == '\U{B9}'
  }

  predicate HasDigit(t: string) {
    exists i | 0 <= i < |t| :: IsDigit(t[i])
  }

  /** `t.split(" ", 1)` has two parts and the first one holds a digit. */
  predicate HasCode(t: string) {
    IndexOf(t, ' ') < |t| && HasDigit(t[..IndexOf(t, ' ')])
  }

  /** `tirar_codigo_inicial` (app.py): the stripped text, without its first space-delimited token
      when that token holds a digit. The result is always a stripped suffix of the stripped text,
      and it is the whole stripped text exactly when there is no code to remove. */
  function StripCode(txt: string): (r: string)
    ensures IsSuffix(r, Strip(txt))
    ensures Strip(r) == r
    ensures r == Strip(txt) <==> !HasCode(Strip(txt))
  {
    var t := Strip(txt);
    if HasCode(t) then
      CodeRemainder(t);
      Strip(t[IndexOf(t, ' ') + 1..])
    else
      t
  }

  predicate IsSuffix(r: string, t: string) {
    |r| <= |t| && r == t[|t| - |r|..]
  }

  /** What is left after the code of a stripped text is a strictly shorter suffix of it. */
  lemma CodeRemainder(t: string)
    requires t == [] || (!IsSpace(t[0]) && !IsSpace(t[|t| - 1]))
    requires IndexOf(t, ' ') < |t|
    ensures var rest := Strip(t[IndexOf(t, ' ') + 1..]);
      |rest| < |t| && IsSuffix(rest, t)
  {
    var k := IndexOf(t, ' ');
    var rest := t[k + 1..];
    assert t[|t| - 1] != ' ';
    assert rest != [] && rest[|rest| - 1] == t[|t| - 1];
    StripSuffix(rest);
  }

  /** Removing the code is the inverse of writing a code, a space and a name: a first token that
      holds a digit and no space, starts with no whitespace and is followed by a name that is not
      blank gives back the stripped name, whatever whitespace surrounds it. */
  lemma StripCodeRoundTrip(code: string, name: string)
    requires code != [] && !IsSpace(code[0]) && ' ' !in code
    requires HasDigit(code)
    requires Strip(name) != []
    ensures StripCode(code + " " + name) == Strip(name)
  {
    var p, m, q := Margins(name);
    StrippedCodeLine(code, p, m, q);
    CodeRemoved(code + " " + name, code, p + m);
    StripPadding(p, m, []);
    assert p + m + [] == p + m;
  }

  /** Stripping a line made of a code, a space and a padded name drops the trailing padding. */
  lemma StrippedCodeLine(code: string, p: string, m: string, q: string)
    requires code != [] && !IsSpace(code[0])
    requires m != [] && !IsSpace(m[|m| - 1])
    requires forall i | 0 <= i < |q| :: IsSpace(q[i])
    ensures Strip(code + " " + (p + m + q)) == code + " " + (p + m)
  {
    assert code + " " + (p + m + q) == code + " " + p + m + q;
    assert code + " " + (p + m) == code + " " + p + m;
    var head := code + " " + p + m;
    assert head[0] == code[0];
    assert head[|head| - 1] == m[|m| - 1];
    assert [] + head + q == code + " " + p + m + q;
    StripPadding([], head, q);
  }

  /** A stripped line whose first token is `code` loses that token and the space after it. */
  lemma CodeRemoved(txt: string, code: string, rest: string)
    requires ' ' !in code && HasDigit(code)
    requires Strip(txt) == code + " " + rest
    ensures StripCode(txt) == Strip(rest)
  {
    var t := code + " " + rest;
    forall i | 0 <= i < |code|
      ensures t[i] != ' '
    {
      assert t[i] == code[i];
    }
    IndexOfFirst(t, ' ', |code|);
    assert t[..|code|] == code;
    assert HasCode(t);
    assert t[|code| + 1..] == rest;
  }

  /** One prepared reference row: the description cell and its base name (`nome_base`). */
  datatype RefEntry = RefEntry(nomeBase: string, desc: Cell)

  function BaseName(desc: Cell): string {
    Normalize(StripCode(AsStr(desc)))
  }

  /** `preparar_categorias` (app.py): one entry per reference row, in order, carrying the row's
      description and a normalised base name; a reference table without the description column
      fails as pandas does. */
  function PrepareCategories(reference: Table): (r: Result<seq<RefEntry>, TableError>)
    ensures r.Failure? <==> RefDescColumn !in reference.columns
    ensures r.Failure? ==> r.error == KeyError(RefDescColumn)
    ensures r.Success? ==>
      && |r.value| == |reference.rows|
      && forall i | 0 <= i < |r.value| ::
           && r.value[i].desc == Get(reference.rows[i], RefDescColumn)
           && r.value[i].nomeBase == BaseName(r.value[i].desc)
           && IsNormalized(r.value[i].nomeBase)
  {
    if RefDescColumn !in reference.columns then
      Failure(KeyError(RefDescColumn))
    else
      Success(seq(|reference.rows|, i requires 0 <= i < |reference.rows| =>
        var desc := Get(reference.rows[i], RefDescColumn);
        RefEntry(BaseName(desc), desc)))
  }
}

=== FILE: conversion.dfy ===
/**
 * `converter_w4`: a W4 treasury ledger becomes the rows of a Conta Azul import sheet. Transfer rows
 * are dropped, each remaining row is matched against the prepared category reference on its
 * normalised detail text, the category is resolved (reference description, else the raw detail,
 * overridden by loan processes), the row is classified as expense or revenue, and the output row is
 * assembled from the ledger's date, amount, description and id columns.
 *
 * The conversion is written twice: `ConvertW4Spec` states the result row by row, and the method
 * `ConvertW4` computes it column by column as the source does, with loops, arrays and in-place
 * overrides, and is proved to return the same thing.
 */
module Conversion {
  import opened Wrappers
  import opened Tables
  import opened Text
  import opened Categories
  import opened Amount
  import opened Rules

  const DetailCol: string := "Detalhe Conta / Objeto"
  const FlowCol: string := "Fluxo"
  const ProcessCol: string := "Processo"
  const AmountCol: string := "Valor total"
  const DateCol: string := "Data da Tesouraria"
  const IdCol: string := "Id Item tesouraria"
  const DescCol: string := "Descrição"
  const TransferMarker: string := "Transferência Entre Disponíveis"
  const LoanWord: string := "emprestimo"

  /** The columns of the import sheet, in order. */
  const OutputColumns: seq<string> := [
    "Data de Competência", "Data de Vencimento", "Data de Pagamento", "Valor", "Categoria",
    "Descrição", "Cliente/Fornecedor CNPJ/CPF", "Cliente/Fornecedor", "Centro de Custo",
    "Observações"]

  // ---------------------------------------------------------------------------------------------
  // Dropping transfers
  // ---------------------------------------------------------------------------------------------

  /** `mascara_transfer`: the printed detail contains the transfer marker, ignoring case. */
  predicate IsTransfer(row: Row) {
    ContainsIgnoringCase(AsStr(Get(row, DetailCol)), TransferMarker)
  }

  /** The ledger rows that are not transfers, in their original order. */
  function KeptRows(rows: seq<Row>): (r: seq<Row>)
    ensures |r| <= |rows|
    ensures forall k | 0 <= k < |r| :: !IsTransfer(r[k])
  {
    if rows == [] then []
    else
      var last := rows[|rows| - 1];
      KeptRows(rows[..|rows| - 1]) + (if IsTransfer(last) then [] else [last])
  }

  /** A row is kept exactly when it is a ledger row and not a transfer. */
  lemma {:induction false} KeptRowsMembership(rows: seq<Row>)
    ensures forall row :: row in KeptRows(rows) <==> row in rows && !IsTransfer(row)
  {
    if rows != [] {
      var front := rows[..|rows| - 1];
      KeptRowsMembership(front);
      assert rows == front + [rows[|rows| - 1]];
    }
  }

  /** Filtering keeps the order: filtering two blocks of rows filters each block separately. */
  lemma {:induction false} KeptRowsConcat(a: seq<Row>, b: seq<Row>)
    ensures KeptRows(a + b) == KeptRows(a) + KeptRows(b)
    decreases |b|
  {
    if b != [] {
      var front := b[..|b| - 1];
      var last := b[|b| - 1];
      assert (a + b)[..|a + b| - 1] == a + front;
      assert (a + b)[|a + b| - 1] == last;
      KeptRowsConcat(a, front);
      calc {
        KeptRows(a + b);
        KeptRows(a + front) + (if IsTransfer(last) then [] else [last]);
        KeptRows(a) + KeptRows(front) + (if IsTransfer(last) then [] else [last]);
        KeptRows(a) + (KeptRows(front) + (if IsTransfer(last) then [] else [last]));
        KeptRows(a) + KeptRows(b);
      }
    } else {
      assert a + b == a;
    }
  }

  // ---------------------------------------------------------------------------------------------
  // The left merge with the category reference
  // ---------------------------------------------------------------------------------------------

  /** A ledger row after the merge, with the reference description it was paired with (missing
      when no reference row matched). */
  datatype Joined = Joined(row: Row, refDesc: Cell)

  /** The normalised printed detail of a row. */
  function DetailKey(row: Row): string {
    Normalize(AsStr(Get(row, DetailCol)))
  }

  /** `nome_base_w4`: the merge key of every row. */
  function KeyColumn(rows: seq<Row>): (keys: seq<string>)
    ensures |keys| == |rows|
  {
    seq(|rows|, k requires 0 <= k < |rows| => DetailKey(rows[k]))
  }

  /** The descriptions of the reference rows whose base name is `key`, in reference order. */
  function Matches(key: string, prep: seq<RefEntry>): (r: seq<Cell>)
    ensures |r| <= |prep|
  {
    if prep == [] then []
    else
      var last := prep[|prep| - 1];
      Matches(key, prep[..|prep| - 1]) + (if last.nomeBase == key then [last.desc] else [])
  }

  /** What a left merge makes of one row: one row per match, or the row alone when nothing
      matched. */
  function JoinRow(row: Row, matches: seq<Cell>): (r: seq<Joined>)
    ensures |r| == if matches == [] then 1 else |matches|
    ensures forall k | 0 <= k < |r| :: r[k].row == row
    ensures forall k | 0 <= k < |r| :: r[k].refDesc == if matches == [] then Missing else matches[k]
  {
    if matches == [] then [Joined(row, Missing)]
    else seq(|matches|, k requires 0 <= k < |matches| => Joined(row, matches[k]))
  }

  /** `df.merge(..., how="left")` of the rows, on their keys, with the reference's base names,
      keeping the order of the ledger rows. */
  function LeftJoin(rows: seq<Row>, keys: seq<string>, prep: seq<RefEntry>): (r: seq<Joined>)
    requires |keys| == |rows|
    ensures |rows| <= |r|
  {
    if rows == [] then []
    else
      var n := |rows| - 1;
      LeftJoin(rows[..n], keys[..n], prep) + JoinRow(rows[n], Matches(keys[n], prep))
  }

  /** Every merged row comes from one of the rows merged. */
  lemma {:induction false} LeftJoinRows(rows: seq<Row>, keys: seq<string>, prep: seq<RefEntry>)
    requires |keys| == |rows|
    ensures forall j | j in LeftJoin(rows, keys, prep) :: j.row in rows
  {
    if rows != [] {
      var n := |rows| - 1;
      LeftJoinRows(rows[..n], keys[..n], prep);
      assert forall row | row in rows[..n] :: row in rows;
    }
  }

  /** Some merged row carries the ledger row `row`. */
  predicate Carries(joined: seq<Joined>, row: Row) {
    exists j | 0 <= j < |joined| :: joined[j].row == row
  }

  /** Every ledger row survives the merge: it is the row of at least one merged row. */
  lemma {:induction false} LeftJoinKeepsRows(rows: seq<Row>, keys: seq<string>, prep: seq<RefEntry>)
    requires |keys| == |rows|
    ensures forall i | 0 <= i < |rows| :: Carries(LeftJoin(rows, keys, prep), rows[i])
  {
    if rows != [] {
      var n := |rows| - 1;
      LeftJoinKeepsRows(rows[..n], keys[..n], prep);
      var front := LeftJoin(rows[..n], keys[..n], prep);
      var tail := JoinRow(rows[n], Matches(keys[n], prep));
      var r := LeftJoin(rows, keys, prep);
      assert r == front + tail;
      forall i | 0 <= i < |rows|
        ensures Carries(r, rows[i])
      {
        if i < n {
          assert rows[..n][i] == rows[i];
          assert Carries(front, rows[i]);
          var j :| 0 <= j < |front| && front[j].row == rows[i];
          assert r[j] == front[j];
        } else {
          assert r[|front|] == tail[0];
        }
      }
    }
  }

  /** No transfer row reaches the output. */
  lemma TransfersDropped(rows: seq<Row>, prep: seq<RefEntry>)
    ensures var kept := KeptRows(rows);
      forall j | j in LeftJoin(kept, KeyColumn(kept), prep) :: j.row in rows && !IsTransfer(j.row)
  {
    var kept := KeptRows(rows);
    LeftJoinRows(kept, KeyColumn(kept), prep);
    KeptRowsMembership(rows);
  }

  /** No two reference rows share a base name. */
  predicate UniqueKeys(prep: seq<RefEntry>) {
    forall i, j | 0 <= i < j < |prep| :: prep[i].nomeBase != prep[j].nomeBase
  }

  /** The reference as a dictionary from base name to description (a later row wins). */
  function Index(prep: seq<RefEntry>): map<string, Cell> {
    if prep == [] then map[]
    else
      var last := prep[|prep| - 1];
      Index(prep[..|prep| - 1])[last.nomeBase := last.desc]
  }

  /** The dictionary holds exactly the base names of the reference. */
  lemma {:induction false} IndexKeys(prep: seq<RefEntry>)
    ensures forall key :: key in Index(prep) <==> exists i | 0 <= i < |prep| :: prep[i].nomeBase == key
  {
    if prep != [] {
      var front := prep[..|prep| - 1];
      IndexKeys(front);
      forall key | key in Index(prep)
        ensures exists i | 0 <= i < |prep| :: prep[i].nomeBase == key
      {
        if key != prep[|prep| - 1].nomeBase {
          assert key in Index(front);
          var i :| 0 <= i < |front| && front[i].nomeBase == key;
          assert prep[i].nomeBase == key;
        }
      }
      forall key, i | 0 <= i < |prep| && prep[i].nomeBase == key
        ensures key in Index(prep)
      {
        if i < |front| {
          assert front[i].nomeBase == key;
        }
      }
    }
  }

  /** With unique base names the merge is a dictionary lookup: at most one match, and it is the
      description the dictionary holds. */
  lemma {:induction false} MatchesUnique(key: string, prep: seq<RefEntry>)
    requires UniqueKeys(prep)
    ensures Matches(key, prep) == if key in Index(prep) then [Index(prep)[key]] else []
  {
    if prep != [] {
      var front := prep[..|prep| - 1];
      var last := prep[|prep| - 1];
      assert UniqueKeys(front) by {
        forall i, j | 0 <= i < j < |front| ensures front[i].nomeBase != front[j].nomeBase {
          assert front[i] == prep[i] && front[j] == prep[j];
        }
      }
      MatchesUnique(key, front);
      if last.nomeBase == key {
        IndexKeys(front);
      }
    }
  }

  /** A ledger row matched by two reference rows with the same base name is emitted twice. */
  lemma DuplicateKeysDuplicateRow(row: Row, prep: seq<RefEntry>, i: int, j: int)
    requires 0 <= i < j < |prep|
    requires prep[i].nomeBase == DetailKey(row) && prep[j].nomeBase == DetailKey(row)
    ensures |LeftJoin([row], [DetailKey(row)], prep)| >= 2
  {
    MatchesTwo(DetailKey(row), prep, i, j);
    assert [row][..0] == [];
    assert [DetailKey(row)][..0] == [];
  }

  lemma {:induction false} MatchesTwo(key: string, prep: seq<RefEntry>, i: int, j: int)
    requires 0 <= i < j < |prep|
    requires prep[i].nomeBase == key && prep[j].nomeBase == key
    ensures |Matches(key, prep)| >= 2
  {
    var front := prep[..|prep| - 1];
    if j < |prep| - 1 {
      assert front[i] == prep[i] && front[j] == prep[j];
      MatchesTwo(key, front, i, j);
    } else {
      assert front[i] == prep[i];
      MatchesFound(key, front, i);
    }
  }

  lemma {:induction false} MatchesFound(key: string, prep: seq<RefEntry>, i: int)
    requires 0 <= i < |prep| && prep[i].nomeBase == key
    ensures Matches(key, prep) != []
  {
    var front := prep[..|prep| - 1];
    if i < |prep| - 1 {
      assert front[i] == prep[i];
      MatchesFound(key, front, i);
    }
  }

  // ---------------------------------------------------------------------------------------------
  // Category, classification and output assembly for one merged row
  // ---------------------------------------------------------------------------------------------

  /** `Categoria_final` before the loan rule: the reference description when present, else the
      raw detail cell. */
  function ResolvedCategory(j: Joined): Cell {
    if j.refDesc.Text? then j.refDesc else Get(j.row, DetailCol)
  }

  /** `mask_emp`: the lower-cased printed process contains "emprestimo". */
  predicate IsLoanProcess(process: Cell) {
    Contains(Lower(AsStr(process)), LoanWord)
  }

  /** `Categoria_final` after the loan rule, which applies only when the ledger has a `Processo`
      column. */
  function FinalCategory(j: Joined, hasProcess: bool): Cell {
    var process := Get(j.row, ProcessCol);
    if hasProcess && IsLoanProcess(process) then process else ResolvedCategory(j)
  }

  /** The category is the loan process, the reference description or the raw detail, the loan
      rule taking precedence; it is never empty when the detail is present, because a missing
      process prints as "nan" and is no loan. */
  lemma FinalCategorySources(j: Joined, hasProcess: bool)
    ensures var c := FinalCategory(j, hasProcess);
      && (c == Get(j.row, ProcessCol) || c == j.refDesc || c == Get(j.row, DetailCol))
      && (hasProcess && IsLoanProcess(Get(j.row, ProcessCol)) ==> c == Get(j.row, ProcessCol))
      && (Get(j.row, DetailCol).Text? ==> c.Text?)
  {
    var process := Get(j.row, ProcessCol);
    if process.Missing? {
      assert |Lower(AsStr(process))| < |LoanWord|;
    }
  }

  /** The printed `Fluxo`, or "" when the ledger has no such column. */
  function FlowText(row: Row, columns: set<string>): string {
    if FlowCol in columns then AsStr(Get(row, FlowCol)) else ""
  }

  /** The printed `Processo`, or nothing when the ledger has no such column. */
  function ProcessText(row: Row, columns: set<string>): Option<string> {
    if ProcessCol in columns then Some(AsStr(Get(row, ProcessCol))) else None
  }

  /** `is_despesa` of a ledger row. */
  predicate RowIsDespesa(row: Row, columns: set<string>) {
    IsDespesa(FlowText(row, columns), ProcessText(row, columns), AsStr(Get(row, DetailCol)))
  }

  /** The description column of the output: the id, a space and the description when the ledger
      has an id column, else the description cell itself. */
  function Description(row: Row, columns: set<string>): (d: Cell)
    ensures IdCol !in columns ==> d == Get(row, DescCol)
    ensures IdCol in columns ==> d == Text(AsStr(Get(row, IdCol)) + " " + AsStr(Get(row, DescCol)))
  {
    if IdCol in columns then Text(AsStr(Get(row, IdCol)) + " " + AsStr(Get(row, DescCol)))
    else Get(row, DescCol)
  }

  /** With an id column a missing description is printed: the id is followed by " nan". Without
      one the description stays empty. */
  lemma MissingDescription(row: Row, columns: set<string>)
    requires Get(row, DescCol).Missing?
    ensures IdCol in columns ==> Description(row, columns) == Text(AsStr(Get(row, IdCol)) + " nan")
    ensures IdCol !in columns ==> Description(row, columns) == Missing
  {
  }

  /** With an id column and an id without spaces, the description reads back as the printed id up
      to its first space and the printed description after it. */
  lemma DescriptionSplits(row: Row, columns: set<string>)
    requires IdCol in columns
    requires ' ' !in AsStr(Get(row, IdCol))
    ensures var d, id := Description(row, columns).s, AsStr(Get(row, IdCol));
      && IndexOf(d, ' ') == |id| && d[..|id|] == id
      && d[|id| + 1..] == AsStr(Get(row, DescCol))
  {
    var d, id := Description(row, columns).s, AsStr(Get(row, IdCol));
    assert d[|id|] == ' ';
    forall i | 0 <= i < |id| ensures d[i] != ' ' {
      assert d[i] == id[i];
    }
    IndexOfFirst(d, ' ', |id|);
  }

  /** One output cell: a missing value, a piece of text or a number. */
  datatype OutCell = Blank | Str(s: string) | Num(d: Decimal)

  function OfCell(c: Cell): OutCell {
    match c
    case Missing => Blank
    case Text(s) => Str(s)
  }

  /** One row of the import sheet. */
  datatype OutputRow = OutputRow(
    competencia: Cell, vencimento: Cell, pagamento: Cell, valor: Option<Decimal>,
    categoria: Cell, descricao: Cell,
    documento: string, cliente: string, centroCusto: string, observacoes: string)

  /** The cell an output row holds under a column name, as the assignment to that column of
      `out` sets it. */
  function Column(o: OutputRow, name: string): OutCell
    requires name in OutputColumns
  {
    if name == "Data de Competência" then OfCell(o.competencia)
    else if name == "Data de Vencimento" then OfCell(o.vencimento)
    else if name == "Data de Pagamento" then OfCell(o.pagamento)
    else if name == "Valor" then (if o.valor.Some? then Num(o.valor.value) else Blank)
    else if name == "Categoria" then OfCell(o.categoria)
    else if name == "Descrição" then OfCell(o.descricao)
    else if name == "Cliente/Fornecedor CNPJ/CPF" then Str(o.documento)
    else if name == "Cliente/Fornecedor" then Str(o.cliente)
    else if name == "Centro de Custo" then Str(o.centroCusto)
    else Str(o.observacoes)
  }

  /** The cells of an output row in the order of `OutputColumns`: the i-th cell is the one set
      under the i-th column name. */
  function Cells(o: OutputRow): (r: seq<OutCell>)
    ensures |r| == |OutputColumns|
    ensures forall i | 0 <= i < |OutputColumns| :: r[i] == Column(o, OutputColumns[i])
  {
    [OfCell(o.competencia), OfCell(o.vencimento), OfCell(o.pagamento),
     if o.valor.Some? then Num(o.valor.value) else Blank,
     OfCell(o.categoria), OfCell(o.descricao),
     Str(o.documento), Str(o.cliente), Str(o.centroCusto), Str(o.observacoes)]
  }

  /** `Categoria_final` of every merged row. */
  function CategoryColumn(joined: seq<Joined>, hasProcess: bool): (c: seq<Cell>)
    ensures |c| == |joined|
  {
    seq(|joined|, k requires 0 <= k < |joined| => FinalCategory(joined[k], hasProcess))
  }

  /** `is_despesa` of every merged row. */
  function DespesaColumn(joined: seq<Joined>, columns: set<string>): (d: seq<bool>)
    ensures |d| == |joined|
  {
    seq(|joined|, k requires 0 <= k < |joined| => RowIsDespesa(joined[k].row, columns))
  }

  /** `Valor_str_final`: every amount converted and signed by the row's classification. */
  function ValueColumn(joined: seq<Joined>, despesa: seq<bool>): (v: seq<Option<Decimal>>)
    requires |despesa| == |joined|
    ensures |v| == |joined|
  {
    seq(|joined|, k requires 0 <= k < |joined| => ConvertValue(Get(joined[k].row, AmountCol), despesa[k]))
  }

  /** `out`: the sheet assembled from the computed columns; `formatDate` stands for
      `formatar_data_coluna` applied to one cell. */
  function Sheet(joined: seq<Joined>, columns: set<string>, formatDate: Cell -> Cell,
                 valor: seq<Option<Decimal>>, categoria: seq<Cell>): (out: seq<OutputRow>)
    requires |valor| == |joined| && |categoria| == |joined|
    ensures |out| == |joined|
    ensures forall k | 0 <= k < |out| ::
      && out[k].competencia == formatDate(Get(joined[k].row, DateCol))
      && out[k].vencimento == out[k].competencia && out[k].pagamento == out[k].competencia
      && out[k].documento == "" && out[k].cliente == "" && out[k].centroCusto == ""
      && out[k].observacoes == ""
  {
    seq(|joined|, k requires 0 <= k < |joined| =>
      var row := joined[k].row;
      var date := formatDate(Get(row, DateCol));
      OutputRow(date, date, date, valor[k], categoria[k], Description(row, columns), "", "", "", ""))
  }

  /** Every column the conversion reads without a guard is present. */
  predicate RequiredColumns(columns: set<string>) {
    DetailCol in columns && AmountCol in columns && DateCol in columns && DescCol in columns
  }

  /** The conversion, row by row. It fails exactly when a required column is missing, reporting
      the first missing one of the detail, amount, date and description columns. Otherwise the
      output has at least as many rows as there are kept ledger rows. */
  function ConvertW4Spec(w4: Table, prep: seq<RefEntry>, formatDate: Cell -> Cell)
    : (r: Result<seq<OutputRow>, TableError>)
    ensures r.Failure? <==> !RequiredColumns(w4.columns)
    ensures DetailCol !in w4.columns ==> r == Failure(DetailColumnMissing)
    ensures DetailCol in w4.columns && AmountCol !in w4.columns ==> r == Failure(KeyError(AmountCol))
    ensures DetailCol in w4.columns && AmountCol in w4.columns && DateCol !in w4.columns ==>
      r == Failure(KeyError(DateCol))
    ensures var cols := w4.columns;
      DetailCol in cols && AmountCol in cols && DateCol in cols && DescCol !in cols ==>
        r == Failure(KeyError(DescCol))
    ensures r.Success? ==> |KeptRows(w4.rows)| <= |r.value|
  {
    if DetailCol !in w4.columns then Failure(DetailColumnMissing)
    else if AmountCol !in w4.columns then Failure(KeyError(AmountCol))
    else if DateCol !in w4.columns then Failure(KeyError(DateCol))
    else if DescCol !in w4.columns then Failure(KeyError(DescCol))
    else
      var kept := KeptRows(w4.rows);
      var joined := LeftJoin(kept, KeyColumn(kept), prep);
      var valor := ValueColumn(joined, DespesaColumn(joined, w4.columns));
      Success(Sheet(joined, w4.columns, formatDate, valor, CategoryColumn(joined, ProcessCol in w4.columns)))
  }

  // ---------------------------------------------------------------------------------------------
  // Properties of the conversion
  // ---------------------------------------------------------------------------------------------

  /** The category of a ledger row, by looking its normalised detail up in the reference
      dictionary: the loan rule first, then a present reference description, then the raw
      detail. */
  function CategoryOf(row: Row, index: map<string, Cell>, hasProcess: bool): Cell {
    var process := Get(row, ProcessCol);
    var key := DetailKey(row);
    if hasProcess && IsLoanProcess(process) then process
    else if key in index && index[key].Text? then index[key]
    else Get(row, DetailCol)
  }

  /** With unique base names the merge pairs each kept row with its dictionary entry. */
  lemma {:induction false} LeftJoinUnique(rows: seq<Row>, keys: seq<string>, prep: seq<RefEntry>)
    requires |keys| == |rows| && UniqueKeys(prep)
    ensures |LeftJoin(rows, keys, prep)| == |rows|
    ensures forall k | 0 <= k < |rows| ::
      LeftJoin(rows, keys, prep)[k] == Joined(rows[k], LookupDesc(keys[k], Index(prep)))
  {
    if rows != [] {
      var n := |rows| - 1;
      LeftJoinUnique(rows[..n], keys[..n], prep);
      MatchesUnique(keys[n], prep);
      var front := LeftJoin(rows[..n], keys[..n], prep);
      var tail := JoinRow(rows[n], Matches(keys[n], prep));
      assert |tail| == 1 && tail[0] == Joined(rows[n], LookupDesc(keys[n], Index(prep)));
      var r := LeftJoin(rows, keys, prep);
      assert r == front + tail;
      forall k | 0 <= k < |rows|
        ensures r[k] == Joined(rows[k], LookupDesc(keys[k], Index(prep)))
      {
        if k < n {
          assert r[k] == front[k];
          assert rows[..n][k] == rows[k] && keys[..n][k] == keys[k];
        }
      }
    }
  }

  /** The description the dictionary holds for `key`, missing when there is none. */
  function LookupDesc(key: string, index: map<string, Cell>): Cell {
    if key in index then index[key] else Missing
  }

  /** The output row `o` is the one the ledger row `row` calls for: the same formatted date in the
      three date columns, the amount converted and signed by the row's classification, the
      category looked up in the reference dictionary, the description (with the id when there is
      an id column), and four empty columns. */
  predicate RowOutput(o: OutputRow, row: Row, index: map<string, Cell>, columns: set<string>,
                      formatDate: Cell -> Cell)
  {
    && o.competencia == formatDate(Get(row, DateCol))
    && o.vencimento == o.competencia && o.pagamento == o.competencia
    && o.valor == ConvertValue(Get(row, AmountCol), RowIsDespesa(row, columns))
    && o.categoria == CategoryOf(row, index, ProcessCol in columns)
    && o.descricao == Description(row, columns)
    && o.documento == "" && o.cliente == "" && o.centroCusto == "" && o.observacoes == ""
  }

  /** With unique base names the output has one row per kept ledger row, in order, and each is the
      output that ledger row calls for. */
  lemma OutputPerKeptRow(w4: Table, prep: seq<RefEntry>, formatDate: Cell -> Cell)
    requires UniqueKeys(prep) && RequiredColumns(w4.columns)
    ensures var r := ConvertW4Spec(w4, prep, formatDate);
      var kept := KeptRows(w4.rows);
      && r.Success?
      && |r.value| == |kept|
      && forall k | 0 <= k < |kept| :: RowOutput(r.value[k], kept[k], Index(prep), w4.columns, formatDate)
  {
    var kept := KeptRows(w4.rows);
    var keys := KeyColumn(kept);
    var joined := LeftJoin(kept, keys, prep);
    var columns := w4.columns;
    LeftJoinUnique(kept, keys, prep);
    var despesa := DespesaColumn(joined, columns);
    var valor := ValueColumn(joined, despesa);
    var categoria := CategoryColumn(joined, ProcessCol in columns);
    var out := Sheet(joined, columns, formatDate, valor, categoria);
    assert ConvertW4Spec(w4, prep, formatDate) == Success(out);
    forall k | 0 <= k < |kept|
      ensures RowOutput(out[k], kept[k], Index(prep), columns, formatDate)
    {
      var row := kept[k];
      assert keys[k] == DetailKey(row);
      assert joined[k] == Joined(row, LookupDesc(DetailKey(row), Index(prep)));
      assert despesa[k] == RowIsDespesa(row, columns);
      assert valor[k] == ConvertValue(Get(row, AmountCol), despesa[k]);
      assert categoria[k] == FinalCategory(joined[k], ProcessCol in columns);
      CategoryViaIndex(row, Index(prep), ProcessCol in columns);
    }
  }

  /** Resolving the category of a merged row is looking it up in the reference dictionary. */
  lemma CategoryViaIndex(row: Row, index: map<string, Cell>, hasProcess: bool)
    ensures FinalCategory(Joined(row, LookupDesc(DetailKey(row), index)), hasProcess)
         == CategoryOf(row, index, hasProcess)
  {
  }

  /** Whatever the reference, every output row repeats one date three times and ends in four
      empty columns. */
  lemma OutputRowsShape(w4: Table, prep: seq<RefEntry>, formatDate: Cell -> Cell)
    ensures var r := ConvertW4Spec(w4, prep, formatDate);
      r.Success? ==> forall o | o in r.value ::
        && o.vencimento == o.competencia && o.pagamento == o.competencia
        && Cells(o)[6..] == [Str(""), Str(""), Str(""), Str("")]
  {
  }

  /** The loan rule looks at the lower-cased process only: an accented "Empréstimo" is not
      recognised. */
  lemma AccentedLoanNotDetected()
    ensures !IsLoanProcess(Text("Empréstimo"))
  {
    AccentBlocksLoanWord("Empréstimo");
  }

  /** A ten-character process whose fifth character is 'é' never contains "emprestimo". */
  lemma AccentBlocksLoanWord(s: string)
    requires |s| == |LoanWord| && s[4] == 'é'
    ensures !IsLoanProcess(Text(s))
  {
    var t := Lower(AsStr(Text(s)));
    assert |t| == |LoanWord|;
    assert t[4] == LowerChar(s[4]) == 'é';
    assert !OccursAt(t, LoanWord, 0) by {
      assert t[0 + 4] != LoanWord[4];
    }
    assert !Contains(t, LoanWord);
  }

  // ---------------------------------------------------------------------------------------------
  // The conversion, column by column
  // ---------------------------------------------------------------------------------------------

  /** The reference rows matching one base name, found by a scan of the reference. */
  method FindMatches(key: string, prep: seq<RefEntry>) returns (matches: seq<Cell>)
    ensures matches == Matches(key, prep)
  {
    matches := [];
    var n := 0;
    while n < |prep|
      invariant 0 <= n <= |prep|
      invariant matches == Matches(key, prep[..n])
    {
      assert prep[..n + 1][..n] == prep[..n];
      if prep[n].nomeBase == key {
        matches := matches + [prep[n].desc];
      }
      n := n + 1;
    }
    assert prep[..|prep|] == prep;
  }

  /** `df_w4.loc[~mascara_transfer]`. */
  method FilterTransfers(rows: seq<Row>) returns (kept: seq<Row>)
    ensures kept == KeptRows(rows)
  {
    kept := [];
    var i := 0;
    while i < |rows|
      invariant 0 <= i <= |rows|
      invariant kept == KeptRows(rows[..i])
    {
      assert rows[..i + 1][..i] == rows[..i];
      if !IsTransfer(rows[i]) {
        kept := kept + [rows[i]];
      }
      i := i + 1;
    }
    assert rows[..|rows|] == rows;
  }

  /** The left merge: for each ledger row, a scan of the reference for its base name. */
  method Merge(rows: seq<Row>, keys: seq<string>, prep: seq<RefEntry>) returns (joined: seq<Joined>)
    requires |keys| == |rows|
    ensures joined == LeftJoin(rows, keys, prep)
  {
    joined := [];
    var i := 0;
    while i < |rows|
      invariant 0 <= i <= |rows|
      invariant joined == LeftJoin(rows[..i], keys[..i], prep)
    {
      var matches := FindMatches(keys[i], prep);
      assert rows[..i + 1][..i] == rows[..i];
      assert keys[..i + 1][..i] == keys[..i];
      joined := joined + JoinRow(rows[i], matches);
      i := i + 1;
    }
    assert rows[..|rows|] == rows;
    assert keys[..|keys|] == keys;
  }

  /** `Categoria_final`: filled from the reference or the detail, then overwritten in place for
      the rows whose process is a loan. */
  method ResolveCategories(joined: seq<Joined>, hasProcess: bool) returns (categoria: seq<Cell>)
    ensures categoria == CategoryColumn(joined, hasProcess)
  {
    var a := new Cell[|joined|];
    var i := 0;
    while i < |joined|
      invariant 0 <= i <= |joined|
      invariant forall k | 0 <= k < i :: a[k] == ResolvedCategory(joined[k])
    {
      a[i] := ResolvedCategory(joined[i]);
      i := i + 1;
    }
    if hasProcess {
      i := 0;
      while i < |joined|
        invariant 0 <= i <= |joined|
        invariant forall k | 0 <= k < i :: a[k] == FinalCategory(joined[k], true)
        invariant forall k | i <= k < |joined| :: a[k] == ResolvedCategory(joined[k])
      {
        var process := Get(joined[i].row, ProcessCol);
        if IsLoanProcess(process) {
          a[i] := process;
        }
        i := i + 1;
      }
    }
    categoria := a[..];
  }

  /** `is_despesa`: the expense conditions, then reset to false in place wherever a revenue
      condition holds. */
  method ClassifyRows(expense: seq<bool>, revenue: seq<bool>) returns (despesa: seq<bool>)
    requires |revenue| == |expense|
    ensures |despesa| == |expense|
    ensures forall k | 0 <= k < |expense| :: despesa[k] == (expense[k] && !revenue[k])
  {
    var a := new bool[|expense|];
    var i := 0;
    while i < |expense|
      invariant 0 <= i <= |expense|
      invariant forall k | 0 <= k < i :: a[k] == expense[k]
    {
      a[i] := expense[i];
      i := i + 1;
    }
    i := 0;
    while i < |expense|
      invariant 0 <= i <= |expense|
      invariant forall k | 0 <= k < i :: a[k] == (expense[k] && !revenue[k])
      invariant forall k | i <= k < |expense| :: a[k] == expense[k]
    {
      if revenue[i] {
        a[i] := false;
      }
      i := i + 1;
    }
    despesa := a[..];
  }

  /** `cond_despesa_fluxo | cond_pagamento | cond_desp_palavra` of every merged row. */
  function ExpenseColumn(joined: seq<Joined>, columns: set<string>): (c: seq<bool>)
    ensures |c| == |joined|
  {
    seq(|joined|, k requires 0 <= k < |joined| => ExpenseCondition(joined[k].row, columns))
  }

  /** `cond_receita_fluxo | cond_recebimento` of every merged row. */
  function RevenueColumn(joined: seq<Joined>, columns: set<string>): (c: seq<bool>)
    ensures |c| == |joined|
  {
    seq(|joined|, k requires 0 <= k < |joined| => RevenueCondition(joined[k].row, columns))
  }

  /** Taking the revenue rows out of the expense rows gives `is_despesa` of every row. */
  lemma DespesaColumnSplit(joined: seq<Joined>, columns: set<string>)
    ensures forall k | 0 <= k < |joined| ::
      DespesaColumn(joined, columns)[k]
      == (ExpenseColumn(joined, columns)[k] && !RevenueColumn(joined, columns)[k])
  {
    forall k | 0 <= k < |joined|
      ensures DespesaColumn(joined, columns)[k]
           == (ExpenseColumn(joined, columns)[k] && !RevenueColumn(joined, columns)[k])
    {
      DespesaConditions(joined[k].row, columns);
    }
  }

  /** `cond_despesa_fluxo | cond_pagamento | cond_desp_palavra` of one row. */
  predicate ExpenseCondition(row: Row, columns: set<string>) {
    var f := FlowText(row, columns);
    var p := ProcessText(row, columns);
    FlowMentions(f, "despesa") || Payment(f, p) || ExpenseWord(f, p, AsStr(Get(row, DetailCol)))
  }

  /** `is_despesa` is the expense conditions with the revenue conditions taken out. */
  lemma DespesaConditions(row: Row, columns: set<string>)
    ensures RowIsDespesa(row, columns) == (ExpenseCondition(row, columns) && !RevenueCondition(row, columns))
  {
  }

  /** `cond_receita_fluxo | cond_recebimento`. */
  predicate RevenueCondition(row: Row, columns: set<string>) {
    var f := FlowText(row, columns);
    FlowMentions(f, "receita") || Receipt(f, ProcessText(row, columns))
  }

  /** `Valor_str_final`: the amount of every row converted, signed by its classification. */
  method ConvertValues(joined: seq<Joined>, despesa: seq<bool>) returns (valor: seq<Option<Decimal>>)
    requires |despesa| == |joined|
    ensures valor == ValueColumn(joined, despesa)
  {
    var a := new Option<Decimal>[|joined|];
    var i := 0;
    while i < |joined|
      invariant 0 <= i <= |joined|
      invariant forall k | 0 <= k < i :: a[k] == ConvertValue(Get(joined[k].row, AmountCol), despesa[k])
    {
      a[i] := ConvertValue(Get(joined[i].row, AmountCol), despesa[i]);
      i := i + 1;
    }
    valor := a[..];
  }

  /** The final sheet, one output row per merged row, from the computed columns. */
  method AssembleRows(joined: seq<Joined>, columns: set<string>, formatDate: Cell -> Cell,
                      valor: seq<Option<Decimal>>, categoria: seq<Cell>)
    returns (out: seq<OutputRow>)
    requires |valor| == |joined| && |categoria| == |joined|
    ensures out == Sheet(joined, columns, formatDate, valor, categoria)
  {
    out := [];
    var i := 0;
    while i < |joined|
      invariant 0 <= i <= |joined|
      invariant out == Sheet(joined, columns, formatDate, valor, categoria)[..i]
    {
      var row := joined[i].row;
      var date := formatDate(Get(row, DateCol));
      out := out + [OutputRow(date, date, date, valor[i], categoria[i], Description(row, columns),
                              "", "", "", "")];
      i := i + 1;
    }
  }

  /** `converter_w4`, column by column; it returns exactly what `ConvertW4Spec` states. */
  method ConvertW4(w4: Table, prep: seq<RefEntry>, formatDate: Cell -> Cell)
    returns (r: Result<seq<OutputRow>, TableError>)
    ensures r == ConvertW4Spec(w4, prep, formatDate)
  {
    if DetailCol !in w4.columns {
      return Failure(DetailColumnMissing);
    }
    var columns := w4.columns;
    var kept := FilterTransfers(w4.rows);
    var joined := Merge(kept, KeyColumn(kept), prep);
    var categoria := ResolveCategories(joined, ProcessCol in columns);
    var despesa := ClassifyRows(ExpenseColumn(joined, columns), RevenueColumn(joined, columns));
    DespesaColumnSplit(joined, columns);
    assert despesa == DespesaColumn(joined, columns);
    if AmountCol !in columns {
      return Failure(KeyError(AmountCol));
    }
    var valor := ConvertValues(joined, despesa);
    if DateCol !in columns {
      return Failure(KeyError(DateCol));
    }
    if DescCol !in columns {
      return Failure(KeyError(DescCol));
    }
    var out := AssembleRows(joined, columns, formatDate, valor, categoria);
    return Success(out);
  }
}

=== FILE: rules.dfy ===
/**
 * The expense/revenue decision of `converter_w4`: which ledger rows are expenses (`is_despesa`)
 * and therefore get a negative amount. The inputs are the row's `Fluxo` text (empty when the ledger
 * has no such column), its `Processo` text (absent when the ledger has no such column) and its
 * detail text, each already printed with `astype(str)`.
 */
module Rules {
  import opened Wrappers
  import opened Text

  /** The lower-cased flow contains `word` (`cond_receita_fluxo`, `cond_despesa_fluxo`). */
  predicate FlowMentions(fluxo: string, word: string) {
    Contains(Lower(fluxo), word)
  }

  /** `fluxo_vazio`: the lower-cased flow, stripped, is "", "nan" or "none". */
  predicate FlowBlank(fluxo: string) {
    var t := Strip(Lower(fluxo));
    t == "" || t == "nan" || t == "none"
  }

  /** Blankness ignores the case of the flow. */
  lemma FlowBlankIgnoresCase(fluxo: string)
    ensures FlowBlank(Lower(fluxo)) == FlowBlank(fluxo)
  {
    LowerIdempotent(fluxo);
  }

  /** Blankness ignores whitespace around the flow. */
  lemma FlowBlankIgnoresPadding(p: string, fluxo: string, q: string)
    requires forall i | 0 <= i < |p| :: IsSpace(p[i])
    requires forall i | 0 <= i < |q| :: IsSpace(q[i])
    ensures FlowBlank(p + fluxo + q) == FlowBlank(fluxo)
  {
    LowerAppend(p + fluxo, q);
    LowerAppend(p, fluxo);
    LowerSpaces(p);
    LowerSpaces(q);
    StripIgnoresPadding(p, Lower(fluxo), q);
  }

  /** The ledger has a `Processo` column and the row's lower-cased process contains `word`. */
  predicate ProcessMentions(processo: Option<string>, word: string) {
    processo.Some? && Contains(Lower(processo.value), word)
  }

  /** The lower-cased detail contains "custo" or "despesa". */
  predicate DetailMentionsExpense(detalhe: string) {
    Contains(Lower(detalhe), "custo") || Contains(Lower(detalhe), "despesa")
  }

  /** `cond_pagamento`: a blank flow and a process about a payment. */
  predicate Payment(fluxo: string, processo: Option<string>) {
    FlowBlank(fluxo) && ProcessMentions(processo, "pagamento")
  }

  /** `cond_recebimento`: a blank flow and a process about a receipt. */
  predicate Receipt(fluxo: string, processo: Option<string>) {
    FlowBlank(fluxo) && ProcessMentions(processo, "recebimento")
  }

  /** `cond_desp_palavra`: a blank flow, no receipt, and an expense word in the detail. */
  predicate ExpenseWord(fluxo: string, processo: Option<string>, detalhe: string) {
    FlowBlank(fluxo) && !Receipt(fluxo, processo) && DetailMentionsExpense(detalhe)
  }

  /** `is_despesa` for one row. A flow naming revenue always wins; otherwise a flow naming an
      expense decides; a non-blank flow naming neither is revenue; with a blank flow a receipt
      process is revenue, and a payment process or an expense word in the detail is an expense. */
  function IsDespesa(fluxo: string, processo: Option<string>, detalhe: string): (r: bool)
    ensures FlowMentions(fluxo, "receita") ==> !r
    ensures FlowMentions(fluxo, "despesa") && !FlowMentions(fluxo, "receita") ==> r
    ensures !FlowBlank(fluxo) && !FlowMentions(fluxo, "despesa") ==> !r
    ensures FlowBlank(fluxo) ==>
      (r <==> !ProcessMentions(processo, "recebimento")
              && (ProcessMentions(processo, "pagamento") || DetailMentionsExpense(detalhe)))
  {
    BlankFlowHasNoKeyword(fluxo);
    (FlowMentions(fluxo, "despesa") || Payment(fluxo, processo) || ExpenseWord(fluxo, processo, detalhe))
    && !(FlowMentions(fluxo, "receita") || Receipt(fluxo, processo))
  }

  /** A blank flow mentions neither keyword: "despesa" and "receita" are longer than "none", and a
      word without surrounding whitespace survives stripping. */
  lemma BlankFlowHasNoKeyword(fluxo: string)
    ensures FlowBlank(fluxo) ==> !FlowMentions(fluxo, "despesa") && !FlowMentions(fluxo, "receita")
  {
    KeywordSurvivesStrip(Lower(fluxo), "despesa");
    KeywordSurvivesStrip(Lower(fluxo), "receita");
  }

  lemma KeywordSurvivesStrip(t: string, word: string)
    requires word != [] && !IsSpace(word[0]) && !IsSpace(word[|word| - 1])
    ensures Contains(t, word) ==> |word| <= |Strip(t)|
  {
    if Contains(t, word) {
      ContainsStrip(t, word);
      ContainsLength(Strip(t), word);
    }
  }

  datatype Polarity = Expense | Revenue

  /** The same decision written as a first-match list of rules, in order of precedence. */
  function Classify(fluxo: string, processo: Option<string>, detalhe: string): (p: Polarity)
    ensures p == Expense <==> IsDespesa(fluxo, processo, detalhe)
  {
    if FlowMentions(fluxo, "receita") then Revenue
    else if FlowMentions(fluxo, "despesa") then Expense
    else if !FlowBlank(fluxo) then Revenue
    else if ProcessMentions(processo, "recebimento") then Revenue
    else if ProcessMentions(processo, "pagamento") then Expense
    else if DetailMentionsExpense(detalhe) then Expense
    else Revenue
  }

  /** Without a `Processo` column only the flow and the detail words decide. */
  lemma NoProcessColumn(fluxo: string, detalhe: string)
    ensures IsDespesa(fluxo, None, detalhe) <==>
      !FlowMentions(fluxo, "receita")
      && (FlowMentions(fluxo, "despesa") || (FlowBlank(fluxo) && DetailMentionsExpense(detalhe)))
  {
    BlankFlowHasNoKeyword(fluxo);
  }
}

=== FILE: tables.dfy ===
/**
 * The tabular values the converter reads: a cell is either missing (pandas' NaN) or a piece of text,
 * a row maps column names to cells, and a table carries the set of its column names.
 */
module Tables {

  datatype Cell = Missing | Text(s: string)

  /** `astype(str)` / `str(...)` of a cell: a missing value prints as "nan". */
  function AsStr(c: Cell): string {
    match c
    case Missing => "nan"
    case Text(s) => s
  }

  type Row = map<string, Cell>

  datatype Table = Table(columns: set<string>, rows: seq<Row>)

  /** The cell of `row` in `column`; a row without an entry for the column holds a missing value. */
  function Get(row: Row, column: string): Cell {
    if column in row then row[column] else Missing
  }

  /** The two ways the conversion fails: the explicit check on the detail column (a ValueError)
      and pandas' KeyError on any other column the code indexes unconditionally. */
  datatype TableError = DetailColumnMissing | KeyError(column: string)
}

=== FILE: text.dfy ===
/**
 * Text normalisation (`normalize_text`) and the string primitives of Python and pandas it is built
 * from: `str.lower`, `str.strip`, NFKD decomposition with combining marks dropped, `re.sub` of a
 * character class run, and substring search (`str.contains`).
 *
 * Unicode tables are given for Latin-1 and the Combining Diacritical Marks block, which covers the
 * Portuguese text the converter handles.
 */
module Text {

  /** Characters for which Python's `str.isspace()` holds; `\s` in a `re` pattern on `str` matches
      the same ones. */
  predicate IsSpace(c: char) {
    || c == ' '
    || '\t' <= c <= '\r'
    || '\U{1C}' <= c <= '\U{1F}'
    || c == '\U{85}'
    || c == '\U{A0}'
    || c == '\U{1680}'
    || '\U{2000}' <= c <= '\U{200A}'
    || c == '\U{2028}'
    || c == '\U{2029}'
    || c == '\U{202F}'
    || c == '\U{205F}'
    || c == '\U{3000}'
  }

  /** The class `[a-z0-9]`. */
  predicate IsWordChar(c: char) {
    'a' <= c <= 'z' || '0' <= c <= '9'
  }

  /** The class `[^a-z0-9]`. */
  predicate NotWordChar(c: char) {
    !IsWordChar(c)
  }

  /** `str.lower()` on one character: ASCII and Latin-1 capitals (except the multiplication sign). */
  function LowerChar(c: char): char {
    if 'A' <= c <= 'Z' || ('\U{C0}' <= c <= '\U{DE}' && c != '\U{D7}') then
      (c as int + 32) as char
    else
      c
  }

  function Lower(s: string): (r: string)
    ensures |r| == |s|
    ensures forall i | 0 <= i < |s| :: r[i] == LowerChar(s[i])
  {
    if s == [] then [] else [LowerChar(s[0])] + Lower(s[1..])
  }

  /** Lower-casing works character by character, so it distributes over concatenation. */
  lemma {:induction false} LowerAppend(a: string, b: string)
    ensures Lower(a + b) == Lower(a) + Lower(b)
  {
    if a != [] {
      assert (a + b)[1..] == a[1..] + b;
      LowerAppend(a[1..], b);
    }
  }

  /** Lower-casing a lower-cased text changes nothing. */
  lemma LowerIdempotent(s: string)
    ensures Lower(Lower(s)) == Lower(s)
  {
    forall i | 0 <= i < |s|
      ensures Lower(Lower(s))[i] == Lower(s)[i]
    {
      assert Lower(s)[i] == LowerChar(s[i]);
    }
  }

  /** Whitespace has no case. */
  lemma LowerSpaces(s: string)
    requires forall i | 0 <= i < |s| :: IsSpace(s[i])
    ensures Lower(s) == s
  {
    forall i | 0 <= i < |s|
      ensures Lower(s)[i] == s[i]
    {
      assert IsSpace(s[i]);
    }
  }

  function TrimStart(s: string): (r: string)
    ensures |r| <= |s|
    ensures r == [] || !IsSpace(r[0])
  {
    if s != [] && IsSpace(s[0]) then TrimStart(s[1..]) else s
  }

  function TrimEnd(s: string): (r: string)
    ensures |r| <= |s|
    ensures r == [] || !IsSpace(r[|r| - 1])
  {
    if s != [] && IsSpace(s[|s| - 1]) then TrimEnd(s[..|s| - 1]) else s
  }

  /** `str.strip()`: `s` without its leading and trailing whitespace. */
  function Strip(s: string): (r: string)
    ensures |r| <= |s|
    ensures r == [] || (!IsSpace(r[0]) && !IsSpace(r[|r| - 1]))
    ensures s == [] || (!IsSpace(s[0]) && !IsSpace(s[|s| - 1])) ==> r == s
  {
    TrimEndSlice(TrimStart(s));
    TrimEnd(TrimStart(s))
  }

  lemma {:induction false} TrimStartSlice(s: string)
    ensures TrimStart(s) == s[|s| - |TrimStart(s)|..]
    decreases |s|
  {
    if s != [] && IsSpace(s[0]) {
      TrimStartSlice(s[1..]);
    }
  }

  lemma {:induction false} TrimEndSlice(s: string)
    ensures TrimEnd(s) == s[..|TrimEnd(s)|]
    decreases |s|
  {
    if s != [] && IsSpace(s[|s| - 1]) {
      TrimEndSlice(s[..|s| - 1]);
    }
  }

  /** `strip()` removes exactly the whitespace around a text that neither starts nor ends with
      whitespace. */
  lemma StripPadding(p: string, m: string, q: string)
    requires forall i | 0 <= i < |p| :: IsSpace(p[i])
    requires forall i | 0 <= i < |q| :: IsSpace(q[i])
    requires m == [] || (!IsSpace(m[0]) && !IsSpace(m[|m| - 1]))
    ensures Strip(p + m + q) == m
  {
    if m == [] {
      var s := p + q;
      forall i | 0 <= i < |s|
        ensures IsSpace(s[i])
      {
        if i < |p| {
          assert s[i] == p[i];
        } else {
          assert s[i] == q[i - |p|];
        }
      }
      TrimStartPadding(s, []);
      assert s + [] == s && p + m + q == s;
    } else {
      assert p + m + q == p + (m + q);
      TrimStartPadding(p, m + q);
      TrimEndPadding(m, q);
    }
  }

  lemma {:induction false} TrimStartPadding(p: string, x: string)
    requires forall i | 0 <= i < |p| :: IsSpace(p[i])
    requires x == [] || !IsSpace(x[0])
    ensures TrimStart(p + x) == x
    decreases |p|
  {
    if p == [] {
      assert p + x == x;
    } else {
      assert (p + x)[0] == p[0];
      assert (p + x)[1..] == p[1..] + x;
      TrimStartPadding(p[1..], x);
    }
  }

  lemma {:induction false} TrimEndPadding(x: string, q: string)
    requires forall i | 0 <= i < |q| :: IsSpace(q[i])
    requires x == [] || !IsSpace(x[|x| - 1])
    ensures TrimEnd(x + q) == x
    decreases |q|
  {
    if q == [] {
      assert x + q == x;
    } else {
      var n := |x + q| - 1;
      assert (x + q)[n] == q[|q| - 1];
      assert (x + q)[..n] == x + q[..|q| - 1];
      TrimEndPadding(x, q[..|q| - 1]);
    }
  }

  /** Whitespace added around a text does not change what `strip()` returns. */
  lemma StripIgnoresPadding(p: string, x: string, q: string)
    requires forall i | 0 <= i < |p| :: IsSpace(p[i])
    requires forall i | 0 <= i < |q| :: IsSpace(q[i])
    ensures Strip(p + x + q) == Strip(x)
  {
    var p', m, q' := Margins(x);
    SpacesConcat(p, p');
    SpacesConcat(q', q);
    assert p + x + q == (p + p') + m + (q' + q);
    StripPadding(p + p', m, q' + q);
  }

  lemma SpacesConcat(a: string, b: string)
    requires forall i | 0 <= i < |a| :: IsSpace(a[i])
    requires forall i | 0 <= i < |b| :: IsSpace(b[i])
    ensures forall i | 0 <= i < |a + b| :: IsSpace((a + b)[i])
  {
    forall i | |a| <= i < |a + b|
      ensures IsSpace((a + b)[i])
    {
      assert (a + b)[i] == b[i - |a|];
    }
  }

  /** `s` is its stripped text with whitespace on either side. */
  lemma Margins(s: string) returns (p: string, m: string, q: string)
    ensures m == Strip(s) && s == p + m + q
    ensures forall i | 0 <= i < |p| :: IsSpace(p[i])
    ensures forall i | 0 <= i < |q| :: IsSpace(q[i])
  {
    m := Strip(s);
    var k := StripMargins(s);
    p, q := s[..k], s[k + |m|..];
    assert s == p + m + q;
    forall i | 0 <= i < |p|
      ensures IsSpace(p[i])
    {
      assert p[i] == s[i];
    }
    forall i | 0 <= i < |q|
      ensures IsSpace(q[i])
    {
      assert q[i] == s[k + |m| + i];
    }
  }

  /** `s.strip()` is the slice of `s` that starts at `k`. */
  lemma StripSlice(s: string) returns (k: nat)
    ensures k + |Strip(s)| <= |s| && Strip(s) == s[k..k + |Strip(s)|]
    ensures k == |s| - |TrimStart(s)|
  {
    k := |s| - |TrimStart(s)|;
    TrimStartSlice(s);
    TrimEndSlice(TrimStart(s));
  }

  /** `s.strip()` is a slice of `s` that neither starts nor ends with a space. */
  lemma StripEnds(s: string) returns (k: nat)
    ensures k + |Strip(s)| <= |s| && Strip(s) == s[k..k + |Strip(s)|]
    ensures Strip(s) != [] ==> s[k] != ' ' && s[k + |Strip(s)| - 1] != ' '
  {
    k := StripSlice(s);
    var r := Strip(s);
    if r != [] {
      assert s[k] == r[0] && s[k + |r| - 1] == r[|r| - 1];
    }
  }

  /** Everything `s.strip()` removes is whitespace. */
  lemma StripMargins(s: string) returns (k: nat)
    ensures k + |Strip(s)| <= |s| && Strip(s) == s[k..k + |Strip(s)|]
    ensures k == |s| - |TrimStart(s)|
    ensures forall i | 0 <= i < k :: IsSpace(s[i])
    ensures forall i | k + |Strip(s)| <= i < |s| :: IsSpace(s[i])
  {
    k := StripSlice(s);
    var t := TrimStart(s);
    TrimStartSlice(s);
    TrimStartMargin(s);
    TrimEndMargin(t);
    forall i | k + |Strip(s)| <= i < |s|
      ensures IsSpace(s[i])
    {
      assert s[i] == t[i - k];
    }
  }

  lemma {:induction false} TrimStartMargin(s: string)
    ensures forall i | 0 <= i < |s| - |TrimStart(s)| :: IsSpace(s[i])
    decreases |s|
  {
    if s != [] && IsSpace(s[0]) {
      TrimStartMargin(s[1..]);
      forall i | 1 <= i < |s| - |TrimStart(s)|
        ensures IsSpace(s[i])
      {
        assert s[i] == s[1..][i - 1];
      }
    }
  }

  lemma {:induction false} TrimEndMargin(s: string)
    ensures forall i | |TrimEnd(s)| <= i < |s| :: IsSpace(s[i])
    decreases |s|
  {
    if s != [] && IsSpace(s[|s| - 1]) {
      TrimEndMargin(s[..|s| - 1]);
      forall i | |TrimEnd(s)| <= i < |s| - 1
        ensures IsSpace(s[i])
      {
        assert s[i] == s[..|s| - 1][i];
      }
    }
  }

  /** When `s` ends in a non-whitespace character, `s.strip()` is a suffix of `s`. */
  lemma StripSuffix(s: string)
    requires s != [] && !IsSpace(s[|s| - 1])
    ensures Strip(s) == s[|s| - |Strip(s)|..]
  {
    var t := TrimStart(s);
    TrimStartMargin(s);
    TrimStartSlice(s);
    assert t != [] && t[|t| - 1] == s[|s| - 1];
    TrimEndSlice(t);
  }

  /** Combining marks (non-zero `unicodedata.combining`) of the Combining Diacritical Marks block;
      U+034F, the grapheme joiner, has combining class 0. */
  predicate IsCombining(c: char) {
    '\U{300}' <= c <= '\U{36F}' && c != '\U{34F}'
  }

  /** NFKD decomposition of one character, with the combining marks it produces removed. */
  function FoldChar(c: char): (r: string)
    ensures c < '\U{80}' ==> r == [c]
    ensures forall i | 0 <= i < |r| :: !IsCombining(r[i])
  {
    if IsCombining(c) then []
    else if c == '\U{A0}' || c == '\U{A8}' || c == '\U{AF}' || c == '\U{B4}' || c == '\U{B8}' then " "
    else if c == '\U{AA}' then "a"
    else if c == '\U{B2}' then "2"
    else if c == '\U{B3}' then "3"
    else if c == '\U{B5}' then "\U{3BC}"
    else if c == '\U{B9}' then "1"
    else if c == '\U{BA}' then "o"
    else if c == '\U{BC}' then "1\U{2044}4"
    else if c == '\U{BD}' then "1\U{2044}2"
    else if c == '\U{BE}' then "3\U{2044}4"
    else if '\U{C0}' <= c <= '\U{C5}' then "A"
    else if c == '\U{C7}' then "C"
    else if '\U{C8}' <= c <= '\U{CB}' then "E"
    else if '\U{CC}' <= c <= '\U{CF}' then "I"
    else if c == '\U{D1}' then "N"
    else if '\U{D2}' <= c <= '\U{D6}' then "O"
    else if '\U{D9}' <= c <= '\U{DC}' then "U"
    else if c == '\U{DD}' then "Y"
    else if '\U{E0}' <= c <= '\U{E5}' then "a"
    else if c == '\U{E7}' then "c"
    else if '\U{E8}' <= c <= '\U{EB}' then "e"
    else if '\U{EC}' <= c <= '\U{EF}' then "i"
    else if c == '\U{F1}' then "n"
    else if '\U{F2}' <= c <= '\U{F6}' then "o"
    else if '\U{F9}' <= c <= '\U{FC}' then "u"
    else if c == '\U{FD}' || c == '\U{FF}' then "y"
    else [c]
  }

  /** `''.join(c for c in unicodedata.normalize('NFKD', s) if not unicodedata.combining(c))`. */
  function Fold(s: string): (r: string)
    ensures (forall i | 0 <= i < |s| :: s[i] < '\U{80}') ==> r == s
    ensures forall i | 0 <= i < |r| :: !IsCombining(r[i])
  {
    if s == [] then [] else FoldChar(s[0]) + Fold(s[1..])
  }

  /** Drops the run of `inRun` characters at the front of `s`. */
  function DropRun(s: string, inRun: char -> bool): (r: string)
    ensures |r| <= |s| && r == s[|s| - |r|..]
    ensures r == [] || !inRun(r[0])
  {
    if s != [] && inRun(s[0]) then DropRun(s[1..], inRun) else s
  }

  /** `re.sub(C + '+', ' ', s)` for a character class C: every maximal run of `inRun` characters
      becomes one space. */
  function ReplaceRuns(s: string, inRun: char -> bool): string
    decreases |s|
  {
    if s == [] then []
    else if inRun(s[0]) then [' '] + ReplaceRuns(DropRun(s[1..], inRun), inRun)
    else [s[0]] + ReplaceRuns(s[1..], inRun)
  }

  /** The shape `normalize_text` promises: only `[a-z0-9 ]`, no space at either end, no two
      spaces in a row. */
  ghost predicate IsNormalized(s: string) {
    && (forall i | 0 <= i < |s| :: IsWordChar(s[i]) || s[i] == ' ')
    && (s != [] ==> s[0] != ' ' && s[|s| - 1] != ' ')
    && (forall i | 0 <= i < |s| - 1 :: s[i] == ' ' ==> s[i + 1] != ' ')
  }

  /** `normalize_text` (app.py): lower-case, strip, drop accents, turn each run of characters
      outside `[a-z0-9]` into one space, collapse whitespace runs and strip again. */
  function Normalize(text: string): (r: string)
    ensures IsNormalized(r)
  {
    var folded := Fold(Strip(Lower(text)));
    var words := ReplaceRuns(folded, NotWordChar);
    var collapsed := ReplaceRuns(words, IsSpace);
    NormalizeShape(folded);
    Strip(collapsed)
  }

  /** Every character of `r` is a space or outside the run class. */
  ghost predicate NoRunChars(r: string, inRun: char -> bool) {
    forall i | 0 <= i < |r| :: r[i] == ' ' || !inRun(r[i])
  }

  /** Every space of `r` is followed by a character outside the run class. */
  ghost predicate SpacesIsolated(r: string, inRun: char -> bool) {
    forall i | 0 <= i < |r| - 1 :: r[i] == ' ' ==> !inRun(r[i + 1])
  }

  /** The result of a run substitution whose class holds the space: no run character is left,
      and every space is followed by a character outside the class. */
  lemma {:induction false} ReplaceRunsShape(s: string, inRun: char -> bool)
    requires inRun(' ')
    ensures NoRunChars(ReplaceRuns(s, inRun), inRun)
    ensures SpacesIsolated(ReplaceRuns(s, inRun), inRun)
    ensures ReplaceRuns(s, inRun) != [] && !inRun(s[0]) ==> ReplaceRuns(s, inRun)[0] == s[0]
    decreases |s|
  {
    if s == [] {
    } else if inRun(s[0]) {
      var rest := DropRun(s[1..], inRun);
      ReplaceRunsShape(rest, inRun);
      ShapeCons(' ', ReplaceRuns(rest, inRun), inRun);
    } else {
      ReplaceRunsShape(s[1..], inRun);
      ShapeCons(s[0], ReplaceRuns(s[1..], inRun), inRun);
    }
  }

  /** Putting a space or a character outside the class in front keeps the shape, as long as a
      space is not followed by a class character. */
  lemma ShapeCons(c: char, tail: string, inRun: char -> bool)
    requires NoRunChars(tail, inRun) && SpacesIsolated(tail, inRun)
    requires c == ' ' || !inRun(c)
    requires c == ' ' && tail != [] ==> !inRun(tail[0])
    ensures NoRunChars([c] + tail, inRun) && SpacesIsolated([c] + tail, inRun)
  {
    var r := [c] + tail;
    forall i | 0 <= i < |r|
      ensures r[i] == ' ' || !inRun(r[i])
    {
      if i > 0 {
        assert r[i] == tail[i - 1];
      }
    }
    forall i | 0 <= i < |r| - 1
      ensures r[i] == ' ' ==> !inRun(r[i + 1])
    {
      if i > 0 {
        assert r[i] == tail[i - 1] && r[i + 1] == tail[i];
      } else {
        assert r[1] == tail[0];
      }
    }
  }

  /** A run substitution changes nothing on a string whose run characters are isolated spaces. */
  lemma {:induction false} ReplaceRunsIdentity(s: string, inRun: char -> bool)
    requires forall i | 0 <= i < |s| :: inRun(s[i]) ==> s[i] == ' '
    requires forall i | 0 <= i < |s| - 1 :: inRun(s[i]) ==> !inRun(s[i + 1])
    ensures ReplaceRuns(s, inRun) == s
    decreases |s|
  {
    if s != [] {
      if inRun(s[0]) {
        assert DropRun(s[1..], inRun) == s[1..] by {
          if |s| > 1 {
            assert s[1..][0] == s[1];
          }
        }
      }
      ReplaceRunsIdentity(s[1..], inRun);
    }
  }

  /** The characters of `s` outside the run class, in order. */
  function Keep(s: string, inRun: char -> bool): (r: string)
    ensures |r| <= |s|
    ensures forall i | 0 <= i < |r| :: !inRun(r[i])
  {
    if s == [] then [] else (if inRun(s[0]) then [] else [s[0]]) + Keep(s[1..], inRun)
  }

  lemma {:induction false} KeepConcat(a: string, b: string, inRun: char -> bool)
    ensures Keep(a + b, inRun) == Keep(a, inRun) + Keep(b, inRun)
    decreases |a|
  {
    if a == [] {
      assert a + b == b;
    } else {
      assert (a + b)[0] == a[0];
      assert (a + b)[1..] == a[1..] + b;
      KeepConcat(a[1..], b, inRun);
    }
  }

  lemma {:induction false} KeepAllRun(s: string, inRun: char -> bool)
    requires forall i | 0 <= i < |s| :: inRun(s[i])
    ensures Keep(s, inRun) == []
    decreases |s|
  {
    if s != [] {
      assert inRun(s[0]);
      KeepAllRun(s[1..], inRun);
    }
  }

  lemma {:induction false} DropRunKeeps(s: string, inRun: char -> bool)
    ensures Keep(DropRun(s, inRun), inRun) == Keep(s, inRun)
    decreases |s|
  {
    if s != [] && inRun(s[0]) {
      DropRunKeeps(s[1..], inRun);
    }
  }

  /** A run substitution whose class holds the space keeps every character outside the class, in
      order: only runs of class characters are replaced. */
  lemma {:induction false} ReplaceRunsKeeps(s: string, inRun: char -> bool)
    requires inRun(' ')
    ensures Keep(ReplaceRuns(s, inRun), inRun) == Keep(s, inRun)
    decreases |s|
  {
    if s == [] {
    } else if inRun(s[0]) {
      var rest := DropRun(s[1..], inRun);
      ReplaceRunsKeeps(rest, inRun);
      DropRunKeeps(s[1..], inRun);
      var r := [' '] + ReplaceRuns(rest, inRun);
      assert r[0] == ' ' && r[1..] == ReplaceRuns(rest, inRun);
    } else {
      ReplaceRunsKeeps(s[1..], inRun);
      var r := [s[0]] + ReplaceRuns(s[1..], inRun);
      assert r[0] == s[0] && r[1..] == ReplaceRuns(s[1..], inRun);
    }
  }

  /** The remaining steps of `normalize_text` after accent folding produce a normalised string. */
  lemma NormalizeShape(folded: string)
    ensures IsNormalized(Strip(ReplaceRuns(ReplaceRuns(folded, NotWordChar), IsSpace)))
  {
    var words := ReplaceRuns(folded, NotWordChar);
    ReplaceRunsShape(folded, NotWordChar);
    assert NoRunChars(words, NotWordChar);
    assert SpacesIsolated(words, NotWordChar);
    forall i | 0 <= i < |words|
      ensures IsWordChar(words[i]) || words[i] == ' '
    {
      assert words[i] == ' ' || !NotWordChar(words[i]);
    }
    forall i | 0 <= i < |words| - 1
      ensures words[i] == ' ' ==> IsWordChar(words[i + 1])
    {
      assert words[i] == ' ' ==> !NotWordChar(words[i + 1]);
    }
    SpacedWordsCollapse(words);
    StripSpacedWords(words);
  }

  /** `normalize_text` keeps the letters and digits of the lower-cased, stripped and folded text,
      in order: it only replaces what lies between them. */
  lemma NormalizeKeepsWords(text: string)
    ensures Keep(Normalize(text), NotWordChar) == Keep(Fold(Strip(Lower(text))), NotWordChar)
  {
    var folded := Fold(Strip(Lower(text)));
    var words := ReplaceRuns(folded, NotWordChar);
    ReplaceRunsKeeps(folded, NotWordChar);
    WordRunsSpaced(folded);
    SpacedWordsCollapse(words);
    StripKeeps(words);
  }

  /** After the word-run substitution, the text is words separated by single spaces. */
  lemma WordRunsSpaced(folded: string)
    ensures var words := ReplaceRuns(folded, NotWordChar);
      && (forall i | 0 <= i < |words| :: IsWordChar(words[i]) || words[i] == ' ')
      && (forall i | 0 <= i < |words| - 1 :: words[i] == ' ' ==> IsWordChar(words[i + 1]))
  {
    var words := ReplaceRuns(folded, NotWordChar);
    ReplaceRunsShape(folded, NotWordChar);
    forall i | 0 <= i < |words|
      ensures IsWordChar(words[i]) || words[i] == ' '
    {
      assert words[i] == ' ' || !NotWordChar(words[i]);
    }
    forall i | 0 <= i < |words| - 1
      ensures words[i] == ' ' ==> IsWordChar(words[i + 1])
    {
      assert words[i] == ' ' ==> !NotWordChar(words[i + 1]);
    }
  }

  /** `strip()` removes only whitespace, so it keeps every letter and digit. */
  lemma StripKeeps(w: string)
    ensures Keep(Strip(w), NotWordChar) == Keep(w, NotWordChar)
  {
    var p, m, q := Margins(w);
    forall i | 0 <= i < |p| ensures NotWordChar(p[i]) {
      WordCharNotSpace(p[i]);
    }
    forall i | 0 <= i < |q| ensures NotWordChar(q[i]) {
      WordCharNotSpace(q[i]);
    }
    KeepAllRun(p, NotWordChar);
    KeepAllRun(q, NotWordChar);
    KeepConcat(p, m, NotWordChar);
    KeepConcat(p + m, q, NotWordChar);
  }

  /** On a string of words separated by single spaces, the whitespace substitution changes
      nothing. */
  lemma SpacedWordsCollapse(w: string)
    requires forall i | 0 <= i < |w| :: IsWordChar(w[i]) || w[i] == ' '
    requires forall i | 0 <= i < |w| - 1 :: w[i] == ' ' ==> IsWordChar(w[i + 1])
    ensures ReplaceRuns(w, IsSpace) == w
  {
    forall i | 0 <= i < |w|
      ensures IsSpace(w[i]) ==> w[i] == ' '
    {
      WordCharNotSpace(w[i]);
    }
    forall i | 0 <= i < |w| - 1
      ensures IsSpace(w[i]) ==> !IsSpace(w[i + 1])
    {
      WordCharNotSpace(w[i]);
      WordCharNotSpace(w[i + 1]);
    }
    ReplaceRunsIdentity(w, IsSpace);
  }

  lemma WordCharNotSpace(c: char)
    ensures IsWordChar(c) ==> !IsSpace(c)
  {
  }

  /** Stripping a string of words separated by single spaces leaves a normalised string. */
  lemma StripSpacedWords(w: string)
    requires forall i | 0 <= i < |w| :: IsWordChar(w[i]) || w[i] == ' '
    requires forall i | 0 <= i < |w| - 1 :: w[i] == ' ' ==> IsWordChar(w[i + 1])
    ensures IsNormalized(Strip(w))
  {
    var k := StripEnds(w);
    SpacedWordsSlice(w, k, k + |Strip(w)|);
  }

  /** A slice of a string of words separated by single spaces that neither starts nor ends with a
      space is normalised. */
  lemma SpacedWordsSlice(w: string, lo: int, hi: int)
    requires forall i | 0 <= i < |w| :: IsWordChar(w[i]) || w[i] == ' '
    requires forall i | 0 <= i < |w| - 1 :: w[i] == ' ' ==> IsWordChar(w[i + 1])
    requires 0 <= lo <= hi <= |w|
    requires lo < hi ==> w[lo] != ' ' && w[hi - 1] != ' '
    ensures IsNormalized(w[lo..hi])
  {
    var r := w[lo..hi];
    forall i | 0 <= i < |r|
      ensures IsWordChar(r[i]) || r[i] == ' '
    {
      assert r[i] == w[lo + i];
    }
    forall i | 0 <= i < |r| - 1
      ensures r[i] == ' ' ==> r[i + 1] != ' '
    {
      assert r[i] == w[lo + i] && r[i + 1] == w[lo + i + 1];
    }
  }

  /** A normalised string is a fixed point of every step of `normalize_text`. */
  lemma NormalizeKeepsNormalized(s: string)
    requires IsNormalized(s)
    ensures Normalize(s) == s
  {
    NormalizedPlain(s);
    NormalizedEnds(s);
    NormalizedWords(s);
    calc {
      Normalize(s);
      Strip(ReplaceRuns(ReplaceRuns(Fold(Strip(Lower(s))), NotWordChar), IsSpace));
      Strip(ReplaceRuns(ReplaceRuns(s, NotWordChar), IsSpace));
      s;
    }
  }

  lemma NormalizedPlain(s: string)
    requires IsNormalized(s)
    ensures Lower(s) == s && Fold(s) == s
  {
    forall i | 0 <= i < |s|
      ensures LowerChar(s[i]) == s[i] && s[i] < '\U{80}'
    {
    }
  }

  lemma NormalizedEnds(s: string)
    requires IsNormalized(s)
    ensures s == [] || (!IsSpace(s[0]) && !IsSpace(s[|s| - 1]))
  {
    if s != [] {
      WordCharNotSpace(s[0]);
      WordCharNotSpace(s[|s| - 1]);
    }
  }

  lemma NormalizedWords(s: string)
    requires IsNormalized(s)
    ensures ReplaceRuns(s, NotWordChar) == s && ReplaceRuns(s, IsSpace) == s
  {
    ReplaceRunsIdentity(s, NotWordChar);
    SpacedWordsCollapse(s);
  }

  /** Normalised strings are exactly the fixed points of `normalize_text`. */
  lemma NormalizeFixpoint(s: string)
    ensures Normalize(s) == s <==> IsNormalized(s)
  {
    if IsNormalized(s) {
      NormalizeKeepsNormalized(s);
    }
  }

  /** `normalize_text` is idempotent. */
  lemma NormalizeIdempotent(s: string)
    ensures Normalize(Normalize(s)) == Normalize(s)
  {
    NormalizeKeepsNormalized(Normalize(s));
  }

  /** `p in s` for strings, as `str.contains` with a plain pattern. */
  predicate Contains(s: string, p: string) {
    exists i | 0 <= i <= |s| - |p| :: OccursAt(s, p, i)
  }

  /** `p` occurs in `s` starting at index `i`. */
  predicate OccursAt(s: string, p: string, i: int) {
    0 <= i && i + |p| <= |s| && forall m | 0 <= m < |p| :: s[i + m] == p[m]
  }

  /** A pattern that neither starts nor ends with whitespace is found in `s` only inside
      `s.strip()`. */
  lemma ContainsStrip(s: string, p: string)
    requires p != [] && !IsSpace(p[0]) && !IsSpace(p[|p| - 1])
    requires Contains(s, p)
    ensures Contains(Strip(s), p)
  {
    var k := StripSlice(s);
    var i :| 0 <= i <= |s| - |p| && OccursAt(s, p, i);
    assert s[i] == p[0] && s[i + |p| - 1] == p[|p| - 1];
    SpanInsideStrip(s, i, i + |p| - 1);
    OccursInSlice(s, p, i, k, k + |Strip(s)|);
  }

  /** A span that starts and ends with non-whitespace characters lies inside `s.strip()`. */
  lemma SpanInsideStrip(s: string, i: int, j: int)
    requires 0 <= i <= j < |s| && !IsSpace(s[i]) && !IsSpace(s[j])
    ensures |s| - |TrimStart(s)| <= i
    ensures j < |s| - |TrimStart(s)| + |Strip(s)|
  {
    StripKeepsNonSpace(s, i);
    StripKeepsNonSpace(s, j);
  }

  /** A character that is not whitespace survives `strip()`. */
  lemma StripKeepsNonSpace(s: string, i: int)
    requires 0 <= i < |s| && !IsSpace(s[i])
    ensures |s| - |TrimStart(s)| <= i < |s| - |TrimStart(s)| + |Strip(s)|
  {
    var k := StripMargins(s);
  }

  /** An occurrence inside a slice is an occurrence in the slice, shifted. */
  lemma OccursInSlice(s: string, p: string, i: int, lo: int, hi: int)
    requires OccursAt(s, p, i)
    requires 0 <= lo <= i && i + |p| <= hi <= |s|
    ensures Contains(s[lo..hi], p)
  {
    var t := s[lo..hi];
    forall m | 0 <= m < |p|
      ensures t[i - lo + m] == p[m]
    {
      assert t[i - lo + m] == s[i + m];
    }
    assert OccursAt(t, p, i - lo);
  }

  /** A string shorter than the pattern does not contain it. */
  lemma ContainsLength(s: string, p: string)
    requires Contains(s, p)
    ensures |p| <= |s|
  {
  }

  /** `p` occurs in `s` at index `i` when both are compared character by character after
      lower-casing. */
  predicate OccursAtIgnoringCase(s: string, p: string, i: int) {
    0 <= i && i + |p| <= |s| && forall m | 0 <= m < |p| :: LowerChar(s[i + m]) == LowerChar(p[m])
  }

  /** `str.contains(p, case=False)` for a plain pattern. */
  predicate ContainsIgnoringCase(s: string, p: string) {
    exists i | 0 <= i <= |s| - |p| :: OccursAtIgnoringCase(s, p, i)
  }

  /** Matching without regard to case is matching the lower-cased text against the lower-cased
      pattern. */
  lemma ContainsIgnoringCaseLower(s: string, p: string)
    ensures ContainsIgnoringCase(s, p) <==> Contains(Lower(s), Lower(p))
  {
    var ls, lp := Lower(s), Lower(p);
    forall i | 0 <= i <= |s| - |p|
      ensures OccursAtIgnoringCase(s, p, i) <==> OccursAt(ls, lp, i)
    {
      if OccursAtIgnoringCase(s, p, i) {
        forall m | 0 <= m < |lp| ensures ls[i + m] == lp[m] {
          assert LowerChar(s[i + m]) == LowerChar(p[m]);
        }
      }
      if OccursAt(ls, lp, i) {
        forall m | 0 <= m < |p| ensures LowerChar(s[i + m]) == LowerChar(p[m]) {
          assert ls[i + m] == lp[m];
        }
      }
    }
  }

  /** Index of the first `c` in `s`, or `|s|` when there is none (`str.find`, and the split point
      of `str.split(c, 1)`). */
  function IndexOf(s: string, c: char): (k: nat)
    ensures k <= |s|
    ensures k < |s| ==> s[k] == c
    ensures forall i | 0 <= i < k :: s[i] != c
  {
    if s == [] || s[0] == c then 0 else 1 + IndexOf(s[1..], c)
  }

  lemma {:induction false} IndexOfFirst(s: string, c: char, k: nat)
    requires k < |s| && s[k] == c
    requires forall i | 0 <= i < k :: s[i] != c
    ensures IndexOf(s, c) == k
    decreases k
  {
    if k > 0 {
      IndexOfFirst(s[1..], c, k - 1);
    }
  }
}

=== FILE: wrappers.dfy ===
/** Option and Result, used for the converter's "no value" and error outcomes. */
module Wrappers {

  datatype Option<+T> = None | Some(value: T)

  datatype Result<+R, +E> = Success(value: R) | Failure(error: E)
}
